=== FILE: README.md ===
# SharpRecast heightfield core, modelled in Dafny

SharpRecast turns a triangle mesh into a voxel heightfield. The heightfield is a
Width x Length grid of cells. Each cell holds the solid vertical intervals
("spans") of its column, as an ordered list of closed voxel ranges. A navigation
grid is then read from it. This project models the integer core of that
pipeline and proves what it does:

- `Cell.AddSpan` (module `Cells`, proofs in `CellProofs`). It inserts a span into
  a cell's list, absorbing every span the new one overlaps or touches. The loop
  is proved against a recursive specification `Merge`. The proofs then show:
  - the list stays sorted and separated;
  - the covered voxels are the old ones plus the new span;
  - every span the new one does not touch survives, in order;
  - filling a cell is independent of the order of the spans.
- The `Heightfield` class (module `Heightfields`, with `Crop` and
  `HeightfieldProofs`), covering:
  - the constructor;
  - the addressing skeleton of `RasterizeTriangle`: clamped row and column
    ranges, one `AddSpan` per targeted cell, and the write at index z*Width + x;
  - `UnderGroundFilter`;
  - the four border scans and the copy of `FilterEmptyEdge`;
  - `ClimbFilter`, `Get` and `ToValidHeight`.

  `Get`, `ClimbFilter` and the copy address the array at x*Width + y, not at the
  z*Width + x that rasterization uses. The model keeps that. It proves:
  - when `Get` and the scans can throw;
  - which window the scans keep;
  - what the cropped heightfield's `Get` sees.
- `MaskGrid.Get` and `MaskGrid.Check` (module `MaskGrids`): the walkability
  mask and its disc test.
- `HeightFieldGrid.Get` (module `HeightFieldGrids`): the byte height map with
  its 0xFF sentinel.

C# exceptions (`IndexOutOfRangeException`, `NullReferenceException`) are
modelled as `Err`/`Fail` results. State changes made before such an exception
are kept.

The float geometry of rasterization is not modelled. This covers bounds
overlap, polygon clipping, and the snapping of heights to voxel indices. A
`Triangle` value holds what that geometry decides:

- whether the triangle overlaps the bounds;
- its row range before clamping;
- the column range of each row;
- the span, if any, of each cell.

The source of `MathHelper` is not part of this model. `RasterizeTriangle`
(Heightfield.cs:41-44, 76-77) and `AddSpan` (Cell.cs:21-22) call its `Clamp`,
which is assumed to behave like `Mathf.Clamp(int, int, int)` (Mathf.cs:21-32).
That assumption alone decides what happens on a grid without cells. There the
upper bound of the clamp is -1, below its lower bound 0, so it decides whether
`RasterizeTriangle` finds a targeted cell, and therefore whether it throws.

## Model

| member | source | states |
|---|---|---|
| Cells.Normalize | SharpRecast/Recast/Cell.cs:15-20 | the swapped span is never inverted and holds exactly the voxels between the two given ends, whichever order they came in |
| Cells.Absorb | SharpRecast/Recast/Cell.cs:33-39 | the widened span reaches from the lower of the two starts to the higher of the two tops, and its ends are ends of the inputs |
| Cells.Merge | SharpRecast/Recast/Cell.cs:23-44 | adding a span leaves at least one span and at most one more than before |
| Cells.Build | SharpRecast/Recast/Cell.cs:13-45 | a cell filled from empty by a series of AddSpan calls never holds more spans than were added |
| Cells.Cell.constructor | SharpRecast/Recast/Cell.cs:9-12 | a new cell has the given height and no spans |
| Cells.Cell.AddSpan | SharpRecast/Recast/Cell.cs:13-45 | the cell's new span list is the old list merged with the swapped span. The merge inserts the span in front of the first span above it, absorbs every span it overlaps or touches, and appends it at the end otherwise |
| CellProofs.CoveredIsEvenHalf | SharpRecast/Recast/Cell.cs:26-31 | a voxel is covered exactly when its half coordinate is |
| CellProofs.CanonicalOrdered | SharpRecast/Recast/Cell.cs:23-44 | in a list of AddSpan's shape every span ends below the start of every later span |
| CellProofs.TailCovers | SharpRecast/Recast/Cell.cs:23-44 | in a list of AddSpan's shape the spans after the first cover exactly what lies above the first |
| CellProofs.NothingBelowFirst | SharpRecast/Recast/Cell.cs:23-44 | nothing below the first span of a list of AddSpan's shape is covered |
| CellProofs.CanonicalUnique | SharpRecast/Recast/Cell.cs:23-44 | two lists of AddSpan's shape that cover the same voxels and seams are equal |
| CellProofs.AbsorbCovers | SharpRecast/Recast/Cell.cs:31-39 | absorbing an existing span that overlaps or touches the new one covers exactly the union of the two |
| CellProofs.MergeCoversHalf | SharpRecast/Recast/Cell.cs:23-44 | on any list, with the span already swapped, the merged list covers exactly the old voxels and seams together with the new span's |
| CellProofs.MergeCovers | SharpRecast/Recast/Cell.cs:13-45 | after AddSpan the covered voxels are the ones covered before together with those of the swapped span |
| CellProofs.MergeLowerBound | SharpRecast/Recast/Cell.cs:23-44 | if the new span and every old span start above b, every span after the merge does |
| CellProofs.MergeCanonical | SharpRecast/Recast/Cell.cs:23-44 | AddSpan keeps the list sorted and separated: every span has Min <= Max and each ends below the start of the next |
| CellProofs.AddSpanKeepsCanonical | SharpRecast/Recast/Cell.cs:13-45 | whatever span is added, even an inverted one, a list of AddSpan's shape keeps that shape |
| CellProofs.MergeSplits | SharpRecast/Recast/Cell.cs:26-44 | the merged list is the untouched old spans, in their order, with one span inserted that contains the new span |
| CellProofs.MergePartition | SharpRecast/Recast/Cell.cs:26-44 | nothing else changes: some position splits the merged list into untouched old spans and one span holding the new span |
| CellProofs.MergeCount | SharpRecast/Recast/Cell.cs:28-44 | each call adds exactly one span and removes exactly the spans it absorbs |
| CellProofs.RunInOneSpan | SharpRecast/Recast/Cell.cs:23-44 | in a list of AddSpan's shape, a run of covered voxels and seams lies inside one span |
| CellProofs.TouchingJoins | SharpRecast/Recast/Cell.cs:26-39 | an old span that overlaps or touches the new one ends up in the same merged span as the new one |
| CellProofs.ApartSurvives | SharpRecast/Recast/Cell.cs:26-31 | an old span that neither overlaps nor touches the new one is still in the list, unchanged |
| CellProofs.AdjacentVersusTouching | SharpRecast/Recast/Cell.cs:26-31 | adjacent spans [0,2] and [3,5] stay apart in either order, while touching spans [0,2] and [2,5] become [0,5] |
| CellProofs.StoredUnclamped | SharpRecast/Recast/Cell.cs:21-22 | the clamp results are dropped: some stored span starts at or below both ends of the given span, so a span reaching below 0 is stored below 0 |
| CellProofs.BuildCanonical | SharpRecast/Recast/Cell.cs:13-45 | a cell filled from empty has AddSpan's shape |
| CellProofs.BuildCovers | SharpRecast/Recast/Cell.cs:13-45 | a cell filled from empty covers exactly the union of the added spans |
| CellProofs.BuildOrderIndependent | SharpRecast/Recast/Cell.cs:13-45 | two series of spans that are permutations of each other fill an empty cell identically |
| GridIndex.Clamp | UnityMath/UnityEngine/Mathf.cs:21-32 | below the lower bound gives the lower bound, otherwise above the upper bound gives the upper bound, and a value inside the bounds is kept; so with min > max every value not below min gives max |
| GridIndex.RowMajorInRange | SharpRecast/Recast/Heightfield.cs:120 | for x in [0, Width) and z in [0, Length), the index z*Width + x lies inside the Width*Length array |
| GridIndex.RowMajorInjective | SharpRecast/Recast/Heightfield.cs:120 | two in-grid positions with the same index z*Width + x are the same position |
| GridIndex.RowMajorOnto | SharpRecast/Recast/Heightfield.cs:26 | every slot of the Width*Length array is the index z*Width + x of an in-grid position |
| GridIndex.ColumnMajorInRange | SharpRecast/Recast/Heightfield.cs:267 | the index x*Width + y of an in-grid position lies inside the array when Width <= Length or Width <= 1 |
| GridIndex.ColumnMajorEscapes | SharpRecast/Recast/Heightfield.cs:267 | on a non-empty grid wider than it is long, the index of the last position is past the end of the array |
| GridIndex.ColumnMajorNext | SharpRecast/Recast/Heightfield.cs:231 | slot y + newWidth of column x is slot y of column x + 1, so the columns of the copy overlap |
| Crop.Write | SharpRecast/Recast/Heightfield.cs:231 | one write of the copy puts the old cell (i + startX, j + startY) into slot i*newWidth + j and leaves every other slot as it was |
| Crop.Copied | SharpRecast/Recast/Heightfield.cs:226-233 | the array being filled keeps newWidth*newLength slots at every step |
| Crop.CopiedLayout | SharpRecast/Recast/Heightfield.cs:226-233 | after the copy, the first newWidth rows of every column hold their cells. Only the last column keeps its rows from newWidth on, because each column overwrites the tail of the one before. The slots after the last column stay empty |
| Heightfields.DropBelow | SharpRecast/Recast/Heightfield.cs:139-150 | the result is a suffix of the list; every removed span tops out below the threshold; the first span kept reaches it |
| Heightfields.FloorOf | SharpRecast/Recast/Heightfield.cs:277-284 | a cell without spans gives the base of the bounds, any other cell the top voxel of its first span |
| Heightfields.Heightfield.constructor | SharpRecast/Recast/Heightfield.cs:19-29 | the array has Width*Length slots, each a fresh, distinct, empty cell of the given height |
| Heightfields.Heightfield.Cropped | SharpRecast/Recast/Heightfield.cs:237-245 | the cropped heightfield takes the given dimensions, height, cell size and array |
| Heightfields.Heightfield.RasterizeTriangle | SharpRecast/Recast/Heightfield.cs:30-123 | every cell in the clamped row and column ranges whose clipped polygon leaves a span gets that span added, once; every other cell is unchanged. It fails (IndexOutOfRange) exactly when the grid has no cells but some cell would get a span |
| Heightfields.Heightfield.RasterizeRow | SharpRecast/Recast/Heightfield.cs:73-121 | one row of the triangle is added on top of the rows before it; on a grid without cells, the first span to add throws |
| Heightfields.Heightfield.AddAt | SharpRecast/Recast/Heightfield.cs:120 | the span of position (x, z) is added to the cell at z*Width + x and to no other cell |
| Heightfields.Heightfield.DropUnderground | SharpRecast/Recast/Heightfield.cs:139-150 | the inner loop, whose index returns to 0 after each removal, leaves the cell's spans from the first one reaching the threshold on |
| Heightfields.Heightfield.FilterSlot | SharpRecast/Recast/Heightfield.cs:137-151 | filtering the cell of one slot filters every slot that shares that cell and no other |
| Heightfields.Heightfield.UnderGroundFilter | SharpRecast/Recast/Heightfield.cs:134-152 | it passes exactly when no slot is empty, and then every cell keeps its spans from the first one reaching the threshold on. Otherwise it throws at the first empty slot, and exactly the cells of the earlier slots are filtered |
| Heightfields.Heightfield.Get | SharpRecast/Recast/Heightfield.cs:263-268 | null outside [0, Width) x [0, Length); inside, the slot at x*Width + y when the array has it, else IndexOutOfRange |
| Heightfields.Heightfield.NarrowGet | SharpRecast/Recast/Heightfield.cs:263-268 | Get never throws on a grid no wider than it is long, at most one column wide, or without rows |
| Heightfields.Heightfield.WideGet | SharpRecast/Recast/Heightfield.cs:263-268 | on any other non-empty grid, Get at the last position throws |
| Heightfields.Heightfield.ScanLine | SharpRecast/Recast/Heightfield.cs:162-171 | the line is reported empty exactly when every cell on it is null or empty. It is reported non-empty exactly when a cell with spans comes first. It throws exactly when an out-of-range read comes first |
| Heightfields.Heightfield.ScanFront | SharpRecast/Recast/Heightfield.cs:160-175 | the forward scan keeps the first line that is not clear, or the last line when all are clear |
| Heightfields.Heightfield.ScanBack | SharpRecast/Recast/Heightfield.cs:176-191 | the backward scan keeps the last line that is not clear above the start, or the line just above the start when all of those are clear |
| Heightfields.Heightfield.Shrink | SharpRecast/Recast/Heightfield.cs:160-191 | the two scans of one direction bracket the kept lines |
| Heightfields.Heightfield.EmptyEdges | SharpRecast/Recast/Heightfield.cs:156-223 | the columns are bracketed reading each whole column, then the rows reading across the kept columns; the scans cannot throw on a grid no wider than it is long, at most one column wide, or without rows |
| Heightfields.Heightfield.EdgeWindowShape | SharpRecast/Recast/Heightfield.cs:156-224 | the window the scans keep lies inside the grid, with at least one column and one row when the grid has any |
| Heightfields.Heightfield.CopyWindow | SharpRecast/Recast/Heightfield.cs:226-233 | the new array is fresh and holds what the nested copy loops write |
| Heightfields.Heightfield.CropTo | SharpRecast/Recast/Heightfield.cs:225-246 | the crop succeeds exactly when the copy stays inside both arrays. The new heightfield then has the window's dimensions, the same height and cell size, and the copied layout |
| Heightfields.Heightfield.FilterEmptyEdge | SharpRecast/Recast/Heightfield.cs:154-247 | the result is the crop to the window the scans keep. It fails only when the copy does not fit, or when a scan throws, which needs a grid with rows that is wider than it is long. A grid without columns or without rows is always cropped |
| Heightfields.Heightfield.NarrowProbe | SharpRecast/Recast/Heightfield.cs:249-261 | on a complete grid no wider than it is long, no read of ClimbFilter throws |
| Heightfields.Heightfield.ClimbFilter | SharpRecast/Recast/Heightfield.cs:249-261 | it throws only at a position every earlier read of which found a filled cell, and it passes on a complete grid no wider than it is long |
| Heightfields.Heightfield.ToValidHeight | SharpRecast/Recast/Heightfield.cs:270-287 | one value per slot: the base for an empty slot or cell, else the top voxel of the cell's first span |
| HeightfieldProofs.DropBelowIdempotent | SharpRecast/Recast/Heightfield.cs:139-150 | filtering a cell twice with the same threshold changes nothing more |
| HeightfieldProofs.DropBelowExact | SharpRecast/Recast/Heightfield.cs:139-151 | on a list of AddSpan's shape the filter removes exactly the spans whose top lies below the threshold, and the list keeps its shape |
| HeightfieldProofs.FloorIsLowestTop | SharpRecast/Recast/Heightfield.cs:277-284 | on a non-empty list of AddSpan's shape the reported voxel is covered, the seam above it is open, and nothing below the lowest span is covered |
| HeightfieldProofs.FrontStopUnique | SharpRecast/Recast/Heightfield.cs:160-175 | the line the forward scan keeps is determined by the cells |
| HeightfieldProofs.BackStopUnique | SharpRecast/Recast/Heightfield.cs:176-191 | the line the backward scan keeps is determined by the cells and the forward scan's line |
| HeightfieldProofs.EdgeWindowUnique | SharpRecast/Recast/Heightfield.cs:156-223 | the window FilterEmptyEdge keeps is a function of the cells |
| HeightfieldProofs.ColumnUnreadable | SharpRecast/Recast/Heightfield.cs:162-171 | on a grid with rows, a column at x >= Length has its first read past the end of the array, so it is neither clear nor hit |
| HeightfieldProofs.NoRowsWindow | SharpRecast/Recast/Heightfield.cs:160-223 | on a grid with columns but no rows the scans keep exactly the last column and no rows |
| HeightfieldProofs.NoColumnsWindow | SharpRecast/Recast/Heightfield.cs:160-223 | on a grid with rows but no columns the scans keep no column and exactly the last row |
| HeightfieldProofs.WideScansThrow | SharpRecast/Recast/Heightfield.cs:160-191 | on a grid with at least one row that is wider than it is long, no window comes out of the scans whatever the cells hold, so FilterEmptyEdge throws in its scans |
| HeightfieldProofs.BackStopKeepsClearLine | SharpRecast/Recast/Heightfield.cs:176-191 | when every line after the start is clear, the kept range still ends one line after the start, on a clear line |
| HeightfieldProofs.FrontStopAllClear | SharpRecast/Recast/Heightfield.cs:160-175 | when every line is clear, the forward scan keeps the last line |
| HeightfieldProofs.CropFitsWhenNarrow | SharpRecast/Recast/Heightfield.cs:226-233 | on a grid no wider than it is long, the copy of the kept window fits exactly when the window has no more columns than rows |
| HeightfieldProofs.CropAgreesWithGet | SharpRecast/Recast/Heightfield.cs:231 | Get on the crop agrees with Get on the original at the shifted position for the first newWidth rows of each column and for every row of the last column |
| HeightfieldProofs.CropShiftsColumns | SharpRecast/Recast/Heightfield.cs:231 | with 2 <= newWidth < newLength, Get on the crop at (0, newWidth) sees the original cell (startX + 1, startY) |
| MaskGrids.Get | SharpRecast/NavGrid/MaskGrid.cs:13-24 | true only at a position the mask has, and there exactly the stored flag |
| MaskGrids.Check | SharpRecast/NavGrid/MaskGrid.cs:37-53 | true exactly when the flag is set at every offset of the disc: both offsets in [-radius, radius) and i*i + j*j <= radius*radius |
| MaskGrids.NoDisc | SharpRecast/NavGrid/MaskGrid.cs:40-52 | with radius <= 0 the test passes whatever the mask holds |
| MaskGrids.OutsideBlocks | SharpRecast/NavGrid/MaskGrid.cs:47-48 | a disc that reaches past the mask, or into a short row, never passes |
| MaskGrids.ClearShrinks | SharpRecast/NavGrid/MaskGrid.cs:39-52 | the test is monotone: a disc that passes makes every smaller disc pass |
| MaskGrids.DiscReach | SharpRecast/NavGrid/MaskGrid.cs:40-42 | the disc includes the position itself and reaches radius steps towards negative x and y, but not towards positive x and y |
| HeightFieldGrids.Get | SharpRecast/NavGrid/HeightFieldGrid.cs:11-22 | 0xFF at a position the grid does not have, else the stored byte |
| HeightFieldGrids.StoredUnlessMissing | SharpRecast/NavGrid/HeightFieldGrid.cs:11-22 | any answer other than 0xFF is a stored byte at that position |
| HeightFieldGrids.MissingIsAmbiguous | SharpRecast/NavGrid/HeightFieldGrid.cs:15-21 | a stored 0xFF and a missing position give the same answer |

## Behaviour of the code worth knowing

- `AddSpan` calls `Clamp` at Cell.cs:21-22 and drops the results, so spans are stored unclamped (`CellProofs.StoredUnclamped`).
- Rasterization writes the cell of (x, z) at z*Width + x (Heightfield.cs:120). `Get`, `ClimbFilter` and the `FilterEmptyEdge` copy read at x*Width + y instead (Heightfield.cs:231, 256, 267). As a result:
  - `Get` throws at every in-grid position whose index is past the end of the array; on a grid with rows that is wider than it is long, the last position is one (`Heightfields.Heightfield.WideGet`);
  - `ClimbFilter` throws only at a read past the array or of an empty slot, and only when every cell it read before held spans, because it returns at the first empty cell (Heightfield.cs:256-258);
  - on a grid with at least one row that is wider than it is long, `FilterEmptyEdge` always throws in its column scans, whatever the cells hold, and the copy is never reached (`HeightfieldProofs.WideScansThrow`);
  - the columns of the crop overlap (`HeightfieldProofs.CropShiftsColumns`).
- The code throws `IndexOutOfRangeException` and `NullReferenceException`.
- The cropped heightfield shares its cell objects with the original (Heightfield.cs:231, 239). The model therefore allows empty and shared slots (`Complete`, `Separate`).
- The backward scans of `FilterEmptyEdge` stop one line late when every line after the start is clear (Heightfield.cs:176-191, `HeightfieldProofs.BackStopKeepsClearLine`), so the kept range can end on an empty line.
- The border scans of `FilterEmptyEdge` throw exactly on a grid with at least one row that is wider than it is long, whether or not it holds spans (`HeightfieldProofs.WideScansThrow`; `Heightfields.Heightfield.FilterEmptyEdge` gives a window on every other grid).
- A heightfield holding no spans, with at least one column and at least one row, that is no wider than it is long is cut to its last column and row (Heightfield.cs:160-175, `HeightfieldProofs.FrontStopAllClear`).
- A heightfield with columns but no rows reads no cell and is cut to its last column and no rows (`HeightfieldProofs.NoRowsWindow`). A heightfield with rows but no columns is cut to no columns and its last row (`HeightfieldProofs.NoColumnsWindow`). Both crops succeed (`Heightfields.Heightfield.FilterEmptyEdge`).

## Left out

- Float geometry of `RasterizeTriangle`: `MathHelper.GetBounds`, `Bounds.Overlap`, polygon clipping and the floor/ceil snapping of heights (Heightfield.cs:31-117). It is given as the `Triangle` value, because it is floating-point work. `MathHelper` is not part of this model.
- The floor/ceil conversions of the dimensions (Heightfield.cs:23-25), of the underground threshold (136) and of the climb height (251). They are floating point; the integers they produce are parameters.
- Heightfields.Heightfield.RasterizeTriangle: requires every slot to hold a cell and no cell to sit in two slots. A cropped heightfield with empty slots (a `NullReferenceException` at line 120) or shared cells (one cell receiving two spans) is not covered.
- Heightfields.Heightfield.constructor: requires non-negative width and length. `new Cell[Width*Length]` (Heightfield.cs:26) throws only when the product is negative. The requires also excludes cases that do not throw: inverted bounds in both x and z give negative Width and Length but a positive number of cells, and one negative dimension with the other 0 gives an empty array. None of these is modelled.
- Heightfields.Heightfield.CropTo: checks up front whether the copy fits, instead of throwing partway through it. The partly filled array is unreachable after the throw, so nothing observable differs.
- Heightfields.Heightfield.ToValidHeight: returns the voxel index of the floor. The scaling by `CellSize` and the offset by the bottom of the bounds (line 283) are floating point.
- The bounds field, and its recomputation for the cropped heightfield (Heightfield.cs:235-236), are floating point.
- `WalkableHeightFilter` (Heightfield.cs:125-132) calls `cell.Combin(height)` at line 130. The `Cell` class (Cell.cs:5-46) defines no `Combin`, so this method does not compile against `Cell` as given, and it has no meaning to model.
- Heightfields.Heightfield.ClimbFilter: the climb height it computes is never used, so only the reads and the early return are modelled.
- 32-bit overflow is not modelled. This covers Width*Length, z*Width + x, x*Width + y, i*newWidth + j, radius*radius and i*i + j*j; all are unbounded integers here.
- `MaskGrid.GetPos`, `MaskGrid.LenToStep`, `HeightFieldGrid.GetPos` and `HeightFieldGrid.LenToStep` are float conversions from world to grid coordinates.
- `CircleObstacle` and `IObstacle` are float geometry outside the core.
- The grid's start and cell size fields of `MaskGrid` and `HeightFieldGrid` are left out. `Get` and `Check` do not read them, so each grid is modelled by its rows alone.
- The UnityMath value types are only used by the float geometry.
- The definition of `Span` is not part of this model; `Span` is modelled as an immutable value. Nothing is lost: the changes `AddSpan` makes to its `span` argument (Cell.cs:17-19, 33-38) stay local, because its only caller passes a freshly built span (Heightfield.cs:120).
- A null `Rows` list or a null row of `MaskGrid` or `HeightFieldGrid` throws `NullReferenceException` (MaskGrid.cs:15, 18; HeightFieldGrid.cs:13, 16). Rows are modelled as sequences, which cannot be null, so that exception is not modelled.

=== FILE: cell.dfy ===
/** A column of the heightfield: an ordered list of closed voxel intervals
    ("spans") and the insertion routine that keeps it merged. */
module Cells {

  /** A closed interval [Min, Max] of voxel indices along the vertical axis. */
  datatype Span = Span(Min: int, Max: int)

  /** Voxel p lies inside span s. */
  predicate Contains(s: Span, p: int) {
    s.Min <= p <= s.Max
  }

  /** Some span of l holds voxel p. */
  predicate Covered(l: seq<Span>, p: int) {
    exists k :: 0 <= k < |l| && Contains(l[k], p)
  }

  /** Half-voxel coordinates: h = 2p is voxel p, h = 2p+1 is the seam between
      voxels p and p+1. A span holds a seam only when it holds both voxels, so
      the half cover tells [0,2],[3,5] apart from [0,5]. */
  predicate ContainsHalf(s: Span, h: int) {
    2 * s.Min <= h <= 2 * s.Max
  }

  predicate CoversHalf(l: seq<Span>, h: int) {
    exists k :: 0 <= k < |l| && ContainsHalf(l[k], h)
  }

  /** The shape AddSpan keeps: every span has Min <= Max and consecutive spans
      are separated by at least one voxel (prev.Max < next.Min). */
  predicate Canonical(l: seq<Span>) {
    && (forall k :: 0 <= k < |l| ==> l[k].Min <= l[k].Max)
    && (forall k :: 0 < k < |l| ==> l[k - 1].Max < l[k].Min)
  }

  /** Cell.cs:15-20: an inverted span is swapped before it is merged. */
  function Normalize(s: Span): (r: Span)
    ensures r.Min <= r.Max
    ensures forall p :: Contains(r, p) <==> (s.Min <= p <= s.Max || s.Max <= p <= s.Min)
  {
    if s.Min > s.Max then Span(s.Max, s.Min) else s
  }

  /** Cell.cs:33-39: the incoming span s swallows the existing span cur. */
  function Absorb(s: Span, cur: Span): (r: Span)
    ensures r.Min <= s.Min && r.Min <= cur.Min && s.Max <= r.Max && cur.Max <= r.Max
    ensures r.Min == s.Min || r.Min == cur.Min
    ensures r.Max == s.Max || r.Max == cur.Max
  {
    Span(if cur.Min < s.Min then cur.Min else s.Min,
         if cur.Max > s.Max then cur.Max else s.Max)
  }

  /** The list AddSpan leaves behind when span s (already swapped) meets the
      list l, scanning l from the front (Cell.cs:23-44): s goes in front of the
      first span that starts above s.Max, every span that overlaps or touches s
      is absorbed and removed, spans below s are kept, and s is appended when
      the scan runs off the end. No clamping into [0, Height] takes place. */
  function Merge(l: seq<Span>, s: Span): (r: seq<Span>)
    ensures 1 <= |r| <= |l| + 1
    decreases |l|
  {
    if l == [] then [s]
    else if l[0].Min > s.Max then [s] + l
    else if l[0].Max >= s.Min then Merge(l[1..], Absorb(s, l[0]))
    else [l[0]] + Merge(l[1..], s)
  }

  /** A span of l that neither overlaps s nor touches it at an endpoint. */
  predicate Apart(t: Span, s: Span) {
    t.Max < s.Min || t.Min > s.Max
  }

  /** The spans of l that AddSpan leaves alone, in their original order. */
  function Untouched(l: seq<Span>, s: Span): (r: seq<Span>)
    ensures |r| <= |l|
    ensures forall k :: 0 <= k < |r| ==> Apart(r[k], s) && r[k] in l
    decreases |l|
  {
    if l == [] then []
    else (if Apart(l[0], s) then [l[0]] else []) + Untouched(l[1..], s)
  }

  /** The spans a cell holds after the spans ss are added one by one, in order,
      to an empty cell. */
  function Build(ss: seq<Span>): (r: seq<Span>)
    ensures |r| <= |ss|
    decreases |ss|
  {
    if ss == [] then [] else Merge(Build(ss[..|ss| - 1]), Normalize(ss[|ss| - 1]))
  }

  /** Cell.cs:5-46. */
  class Cell {
    var Spans: seq<Span>
    const Height: int

    constructor (height: int)
      ensures Spans == [] && Height == height
    {
      Height := height;
      Spans := [];
    }

    /** Cell.cs:13-45. The two Clamp calls at lines 21-22 discard their
        results, so the span is stored unclamped. */
    method AddSpan(span: Span)
      modifies this
      ensures Spans == Merge(old(Spans), Normalize(span))
    {
      var s := span;
      if s.Min > s.Max {
        var tmp := s.Min;
        s := s.(Min := s.Max);
        s := s.(Max := tmp);
      }
      var i := 0;
      while i < |Spans|
        invariant 0 <= i <= |Spans|
        invariant Spans[..i] + Merge(Spans[i..], s) == Merge(old(Spans), Normalize(span))
        decreases |Spans| - i
      {
        var cur := Spans[i];
        if cur.Min > s.Max {
          assert Merge(Spans[i..], s) == [s] + Spans[i..];
          Spans := Spans[..i] + [s] + Spans[i..];
          return;
        } else if cur.Max >= s.Min {
          ghost var merged := Absorb(s, cur);
          if cur.Min < s.Min {
            s := s.(Min := cur.Min);
          }
          if cur.Max > s.Max {
            s := s.(Max := cur.Max);
          }
          assert s == merged;
          ghost var before := Spans;
          assert before[i..][1..] == before[i + 1..];
          Spans := Spans[..i] + Spans[i + 1..];
          assert Spans[..i] == before[..i] && Spans[i..] == before[i + 1..];
          i := i - 1;
        } else {
          assert Spans[i..][1..] == Spans[i + 1..];
          assert Spans[..i + 1] == Spans[..i] + [cur];
        }
        i := i + 1;
      }
      Spans := Spans + [s];
    }
  }
}

=== FILE: cell_proofs.dfy ===
/** What AddSpan guarantees about a cell's span list: it stays canonical, it
    covers exactly the old voxels plus the new span, spans away from the new
    one survive in order, and the final list does not depend on the order in
    which spans arrive. */
module CellProofs {
  import opened Cells

  // ---------------------------------------------------------------------
  // Small facts about covers and the canonical shape

  lemma CoversHalfCons(a: Span, l: seq<Span>, h: int)
    ensures CoversHalf([a] + l, h) <==> ContainsHalf(a, h) || CoversHalf(l, h)
  {
    var al := [a] + l;
    if CoversHalf(l, h) {
      var k :| 0 <= k < |l| && ContainsHalf(l[k], h);
      assert al[k + 1] == l[k];
    }
    if CoversHalf(al, h) {
      var k :| 0 <= k < |al| && ContainsHalf(al[k], h);
      if k > 0 { assert al[k] == l[k - 1]; }
    }
    assert al[0] == a;
  }

  lemma CoversHalfSplit(l: seq<Span>, h: int)
    requires l != []
    ensures CoversHalf(l, h) <==> ContainsHalf(l[0], h) || CoversHalf(l[1..], h)
  {
    assert l == [l[0]] + l[1..];
    CoversHalfCons(l[0], l[1..], h);
  }

  /** Voxel p is covered exactly when its half coordinate 2p is. */
  lemma CoveredIsEvenHalf(l: seq<Span>, p: int)
    ensures Covered(l, p) <==> CoversHalf(l, 2 * p)
  {
    if Covered(l, p) {
      var k :| 0 <= k < |l| && Contains(l[k], p);
      assert ContainsHalf(l[k], 2 * p);
    }
    if CoversHalf(l, 2 * p) {
      var k :| 0 <= k < |l| && ContainsHalf(l[k], 2 * p);
      assert Contains(l[k], p);
    }
  }

  /** Consecutive separation gives separation of any two spans. */
  lemma {:induction false} CanonicalOrdered(l: seq<Span>, i: int, j: int)
    requires Canonical(l)
    requires 0 <= i < j < |l|
    ensures l[i].Max < l[j].Min
    decreases j - i
  {
    if i + 1 < j {
      CanonicalOrdered(l, i + 1, j);
      assert l[i].Max < l[i + 1].Min <= l[i + 1].Max;
    }
  }

  /** In a canonical list the tail covers exactly what lies above the first span. */
  lemma TailCovers(l: seq<Span>)
    requires Canonical(l) && l != []
    ensures forall h :: CoversHalf(l[1..], h) <==> CoversHalf(l, h) && h > 2 * l[0].Max + 1
  {
    forall h ensures CoversHalf(l[1..], h) <==> CoversHalf(l, h) && h > 2 * l[0].Max + 1 {
      CoversHalfSplit(l, h);
      if CoversHalf(l[1..], h) {
        var k :| 0 <= k < |l[1..]| && ContainsHalf(l[1..][k], h);
        CanonicalOrdered(l, 0, k + 1);
      }
    }
  }

  /** Nothing below the first span of a canonical list is covered. */
  lemma NothingBelowFirst(l: seq<Span>, h: int)
    requires Canonical(l) && l != []
    requires h < 2 * l[0].Min
    ensures !CoversHalf(l, h)
  {
    if CoversHalf(l, h) {
      var k :| 0 <= k < |l| && ContainsHalf(l[k], h);
      if k > 0 { CanonicalOrdered(l, 0, k); }
    }
  }

  /** Canonical lists are determined by their half cover. */
  lemma {:induction false} CanonicalUnique(a: seq<Span>, b: seq<Span>)
    requires Canonical(a) && Canonical(b)
    requires forall h :: CoversHalf(a, h) <==> CoversHalf(b, h)
    ensures a == b
    decreases |a|
  {
    if a == [] || b == [] {
      if a != [] {
        assert ContainsHalf(a[0], 2 * a[0].Min);
        assert CoversHalf(a, 2 * a[0].Min);
      }
      if b != [] {
        assert ContainsHalf(b[0], 2 * b[0].Min);
        assert CoversHalf(b, 2 * b[0].Min);
      }
      return;
    }
    // Same lowest voxel.
    assert ContainsHalf(a[0], 2 * a[0].Min) && CoversHalf(a, 2 * a[0].Min);
    assert ContainsHalf(b[0], 2 * b[0].Min) && CoversHalf(b, 2 * b[0].Min);
    if a[0].Min < b[0].Min {
      NothingBelowFirst(b, 2 * a[0].Min);
    }
    if b[0].Min < a[0].Min {
      NothingBelowFirst(a, 2 * b[0].Min);
    }
    assert a[0].Min == b[0].Min;
    // Same top of the lowest run: the seam above it is covered by one list
    // only if its first span goes higher.
    TailCovers(a);
    TailCovers(b);
    var ha, hb := 2 * a[0].Max + 1, 2 * b[0].Max + 1;
    CoversHalfSplit(a, ha);
    CoversHalfSplit(b, hb);
    assert !CoversHalf(a, ha) && !CoversHalf(b, hb);
    assert a[0] == b[0];
    CanonicalUnique(a[1..], b[1..]);
    assert a == [a[0]] + a[1..] && b == [b[0]] + b[1..];
  }

  // ---------------------------------------------------------------------
  // AddSpan: cover

  /** Cell.cs:33-40: absorbing a span that overlaps or touches s covers the
      union of the two. */
  lemma AbsorbCovers(s: Span, cur: Span)
    requires s.Min <= s.Max
    requires cur.Min <= s.Max && cur.Max >= s.Min
    ensures Absorb(s, cur).Min <= Absorb(s, cur).Max
    ensures forall h :: ContainsHalf(Absorb(s, cur), h) <==> ContainsHalf(s, h) || ContainsHalf(cur, h)
  {
  }

  /** The half cover after the merge is the old one united with the new span;
      this holds for any list, canonical or not. */
  lemma {:induction false} MergeCoversHalf(l: seq<Span>, s: Span)
    requires s.Min <= s.Max
    ensures forall h :: CoversHalf(Merge(l, s), h) <==> CoversHalf(l, h) || ContainsHalf(s, h)
    decreases |l|
  {
    if l == [] {
      forall h ensures CoversHalf([s], h) <==> ContainsHalf(s, h) {
        CoversHalfCons(s, [], h);
      }
    } else if l[0].Min > s.Max {
      forall h ensures CoversHalf([s] + l, h) <==> CoversHalf(l, h) || ContainsHalf(s, h) {
        CoversHalfCons(s, l, h);
      }
    } else if l[0].Max >= s.Min {
      var s' := Absorb(s, l[0]);
      AbsorbCovers(s, l[0]);
      MergeCoversHalf(l[1..], s');
      forall h ensures CoversHalf(Merge(l, s), h) <==> CoversHalf(l, h) || ContainsHalf(s, h) {
        CoversHalfSplit(l, h);
      }
    } else {
      MergeCoversHalf(l[1..], s);
      forall h ensures CoversHalf(Merge(l, s), h) <==> CoversHalf(l, h) || ContainsHalf(s, h) {
        CoversHalfSplit(l, h);
        CoversHalfCons(l[0], Merge(l[1..], s), h);
      }
    }
  }

  /** Cell.cs:13-45: the voxels covered after AddSpan are those covered before
      plus every voxel between the two endpoints of the incoming span, in
      whichever order they were given. */
  lemma MergeCovers(l: seq<Span>, span: Span)
    ensures forall p :: Covered(Merge(l, Normalize(span)), p) <==>
                        Covered(l, p) || span.Min <= p <= span.Max || span.Max <= p <= span.Min
  {
    var s := Normalize(span);
    MergeCoversHalf(l, s);
    forall p ensures Covered(Merge(l, s), p) <==> Covered(l, p) || span.Min <= p <= span.Max || span.Max <= p <= span.Min {
      CoveredIsEvenHalf(Merge(l, s), p);
      CoveredIsEvenHalf(l, p);
      assert ContainsHalf(s, 2 * p) <==> Contains(s, p);
    }
  }

  // ---------------------------------------------------------------------
  // AddSpan: shape

  /** Every span of the merged list starts above b when s and all of l do. */
  lemma {:induction false} MergeLowerBound(l: seq<Span>, s: Span, b: int)
    requires b < s.Min
    requires forall k :: 0 <= k < |l| ==> b < l[k].Min
    ensures forall k :: 0 <= k < |Merge(l, s)| ==> b < Merge(l, s)[k].Min
    decreases |l|
  {
    if l == [] {
    } else if l[0].Min > s.Max {
    } else if l[0].Max >= s.Min {
      MergeLowerBound(l[1..], Absorb(s, l[0]), b);
    } else {
      MergeLowerBound(l[1..], s, b);
    }
  }

  /** Cell.cs:23-44: AddSpan preserves the canonical shape (sorted, each span
      non-inverted, consecutive spans separated: prev.Max < next.Min). */
  lemma {:induction false} MergeCanonical(l: seq<Span>, s: Span)
    requires Canonical(l) && s.Min <= s.Max
    ensures Canonical(Merge(l, s))
    decreases |l|
  {
    if l == [] {
    } else if l[0].Min > s.Max {
    } else if l[0].Max >= s.Min {
      MergeCanonical(l[1..], Absorb(s, l[0]));
    } else {
      var rest := Merge(l[1..], s);
      MergeCanonical(l[1..], s);
      forall k | 0 <= k < |l[1..]| ensures l[0].Max < l[1..][k].Min {
        CanonicalOrdered(l, 0, k + 1);
      }
      MergeLowerBound(l[1..], s, l[0].Max);
      assert l[0].Max < rest[0].Min;
    }
  }

  /** The cell stays canonical across any call of AddSpan. */
  lemma AddSpanKeepsCanonical(l: seq<Span>, span: Span)
    requires Canonical(l)
    ensures Canonical(Merge(l, Normalize(span)))
  {
    MergeCanonical(l, Normalize(span));
  }

  lemma {:induction false} UntouchedAll(l: seq<Span>, s: Span)
    requires forall k :: 0 <= k < |l| ==> Apart(l[k], s)
    ensures Untouched(l, s) == l
    decreases |l|
  {
    if l != [] {
      UntouchedAll(l[1..], s);
      assert l == [l[0]] + l[1..];
    }
  }

  lemma {:induction false} UntouchedAgree(l: seq<Span>, s1: Span, s2: Span)
    requires forall k :: 0 <= k < |l| ==> (Apart(l[k], s1) <==> Apart(l[k], s2))
    ensures Untouched(l, s1) == Untouched(l, s2)
    decreases |l|
  {
    if l != [] {
      UntouchedAgree(l[1..], s1, s2);
    }
  }

  lemma {:induction false} UntouchedHas(l: seq<Span>, s: Span, j: int)
    requires 0 <= j < |l| && Apart(l[j], s)
    ensures l[j] in Untouched(l, s)
    decreases |l|
  {
    if j > 0 {
      UntouchedHas(l[1..], s, j - 1);
    }
  }

  /** r is u with one extra span, at index k, that contains s. */
  predicate SplitAt(r: seq<Span>, k: int, s: Span, u: seq<Span>) {
    0 <= k < |r| && r[k].Min <= s.Min && s.Max <= r[k].Max && r[..k] + r[k + 1..] == u
  }

  lemma SplitAtCons(a: Span, r: seq<Span>, k: int, s: Span, u: seq<Span>)
    requires SplitAt(r, k, s, u)
    ensures SplitAt([a] + r, k + 1, s, [a] + u)
  {
    var ar := [a] + r;
    assert ar[k + 1] == r[k];
    assert ar[..k + 1] == [a] + r[..k];
    assert ar[k + 2..] == r[k + 1..];
  }

  lemma SplitAtWiden(r: seq<Span>, k: int, s: Span, s': Span, u: seq<Span>)
    requires SplitAt(r, k, s', u)
    requires s'.Min <= s.Min && s.Max <= s'.Max
    ensures SplitAt(r, k, s, u)
  {
  }

  lemma SplitAtMember(r: seq<Span>, k: int, s: Span, u: seq<Span>, x: Span)
    requires SplitAt(r, k, s, u) && x in u
    ensures x in r
  {
    var m :| 0 <= m < |u| && u[m] == x;
    if m < k {
      assert u[m] == r[..k][m] == r[m];
    } else {
      assert u[m] == r[k + 1..][m - k] == r[m + 1];
    }
  }

  /** A span below every span of a canonical list goes in front, apart from
      all of them. */
  lemma SplitsInFront(l: seq<Span>, s: Span)
    requires Canonical(l) && s.Min <= s.Max && l != [] && l[0].Min > s.Max
    ensures SplitAt(Merge(l, s), 0, s, Untouched(l, s))
  {
    var r := Merge(l, s);
    forall j | 0 <= j < |l| ensures Apart(l[j], s) {
      if j > 0 { CanonicalOrdered(l, 0, j); }
    }
    UntouchedAll(l, s);
    assert r[..0] + r[1..] == l;
  }

  /** Absorbing the first span changes which of the later spans are apart
      from the incoming one in no way. */
  lemma UntouchedAfterAbsorb(l: seq<Span>, s: Span)
    requires Canonical(l) && s.Min <= s.Max && l != []
    requires l[0].Min <= s.Max && l[0].Max >= s.Min
    ensures Untouched(l, s) == Untouched(l[1..], Absorb(s, l[0]))
  {
    var s' := Absorb(s, l[0]);
    forall j | 0 <= j < |l[1..]| ensures Apart(l[1..][j], s') <==> Apart(l[1..][j], s) {
      CanonicalOrdered(l, 0, j + 1);
    }
    UntouchedAgree(l[1..], s', s);
    assert !Apart(l[0], s);
  }

  lemma {:induction false} MergeSplits(l: seq<Span>, s: Span) returns (k: int)
    requires Canonical(l) && s.Min <= s.Max
    ensures SplitAt(Merge(l, s), k, s, Untouched(l, s))
    decreases |l|
  {
    if l == [] {
      k := 0;
      var r := Merge(l, s);
      assert r[..0] + r[1..] == [];
    } else if l[0].Min > s.Max {
      SplitsInFront(l, s);
      k := 0;
    } else if l[0].Max >= s.Min {
      var s' := Absorb(s, l[0]);
      k := MergeSplits(l[1..], s');
      UntouchedAfterAbsorb(l, s);
      SplitAtWiden(Merge(l, s), k, s, s', Untouched(l[1..], s'));
    } else {
      var k' := MergeSplits(l[1..], s);
      SplitAtCons(l[0], Merge(l[1..], s), k', s, Untouched(l[1..], s));
      assert Apart(l[0], s);
      k := k' + 1;
    }
  }

  /** Cell.cs:26-44, nothing else changes: on a canonical list, AddSpan
      leaves exactly one span that was not there before, and it contains the
      incoming span; removing it leaves precisely the old spans that neither
      overlap nor touch the incoming span, in their old order. */
  lemma MergePartition(l: seq<Span>, s: Span)
    requires Canonical(l) && s.Min <= s.Max
    ensures exists k :: SplitAt(Merge(l, s), k, s, Untouched(l, s))
  {
    var k := MergeSplits(l, s);
  }

  /** Cell.cs:28, 40, 44: each call inserts one span and removes the absorbed
      ones, so on a canonical list the count becomes one more than the number
      of untouched spans, and never grows by more than one. */
  lemma MergeCount(l: seq<Span>, s: Span)
    requires Canonical(l) && s.Min <= s.Max
    ensures |Merge(l, s)| == |Untouched(l, s)| + 1 <= |l| + 1
  {
    var k := MergeSplits(l, s);
  }

  /** A run of half points covered by a canonical list lies in a single span,
      because between two spans there is always an uncovered seam. */
  lemma RunInOneSpan(l: seq<Span>, lo: int, hi: int)
    requires Canonical(l) && lo <= hi
    requires forall h :: lo <= h <= hi ==> CoversHalf(l, h)
    ensures exists k :: 0 <= k < |l| && 2 * l[k].Min <= lo && hi <= 2 * l[k].Max
  {
    assert CoversHalf(l, lo);
    var k :| 0 <= k < |l| && ContainsHalf(l[k], lo);
    if hi > 2 * l[k].Max {
      var h := 2 * l[k].Max + 1;
      assert CoversHalf(l, h);
      var k' :| 0 <= k' < |l| && ContainsHalf(l[k'], h);
      if k' < k {
        CanonicalOrdered(l, k', k);
      } else if k < k' {
        CanonicalOrdered(l, k, k');
      }
    }
  }

  /** Cell.cs:26 and 31: a span that overlaps the incoming one or touches it at
      an endpoint ends up inside the same single span as the incoming one. */
  lemma TouchingJoins(l: seq<Span>, s: Span, j: int)
    requires Canonical(l) && s.Min <= s.Max
    requires 0 <= j < |l| && !Apart(l[j], s)
    ensures exists k :: 0 <= k < |Merge(l, s)| &&
                        Merge(l, s)[k].Min <= l[j].Min && l[j].Max <= Merge(l, s)[k].Max &&
                        Merge(l, s)[k].Min <= s.Min && s.Max <= Merge(l, s)[k].Max
  {
    var r := Merge(l, s);
    MergeCanonical(l, s);
    MergeCoversHalf(l, s);
    var t := l[j];
    var lo := 2 * (if t.Min < s.Min then t.Min else s.Min);
    var hi := 2 * (if t.Max > s.Max then t.Max else s.Max);
    forall h | lo <= h <= hi ensures CoversHalf(r, h) {
      if !ContainsHalf(s, h) {
        assert ContainsHalf(t, h);
        assert CoversHalf(l, h);
      }
    }
    RunInOneSpan(r, lo, hi);
  }

  /** Cell.cs:26-31: a span that neither overlaps nor touches the incoming one
      stays in the list unchanged, even when it is integer-adjacent to it. */
  lemma ApartSurvives(l: seq<Span>, s: Span, j: int)
    requires Canonical(l) && s.Min <= s.Max
    requires 0 <= j < |l| && Apart(l[j], s)
    ensures l[j] in Merge(l, s)
  {
    var r := Merge(l, s);
    var k := MergeSplits(l, s);
    UntouchedHas(l, s, j);
    SplitAtMember(r, k, s, Untouched(l, s), l[j]);
  }

  /** Concrete cases: [0,2] and [3,5] stay separate, [0,2] and [2,5] merge. */
  lemma AdjacentVersusTouching()
    ensures Merge([Span(0, 2)], Span(3, 5)) == [Span(0, 2), Span(3, 5)]
    ensures Merge([Span(0, 2)], Span(2, 5)) == [Span(0, 5)]
    ensures Merge([Span(3, 5)], Span(0, 2)) == [Span(0, 2), Span(3, 5)]
  {
  }

  /** Cell.cs:21-22: the clamp results are dropped, so a span reaching below
      voxel 0 is stored as given, whatever the cell's Height. */
  lemma StoredUnclamped(l: seq<Span>, span: Span)
    requires Canonical(l)
    ensures exists k :: 0 <= k < |Merge(l, Normalize(span))| &&
                        Merge(l, Normalize(span))[k].Min <= span.Min &&
                        Merge(l, Normalize(span))[k].Min <= span.Max
  {
    var k := MergeSplits(l, Normalize(span));
  }

  // ---------------------------------------------------------------------
  // Order independence

  /** A cell filled from empty is canonical. */
  lemma {:induction false} BuildCanonical(ss: seq<Span>)
    ensures Canonical(Build(ss))
    decreases |ss|
  {
    if ss != [] {
      BuildCanonical(ss[..|ss| - 1]);
      MergeCanonical(Build(ss[..|ss| - 1]), Normalize(ss[|ss| - 1]));
    }
  }

  /** A cell filled from empty covers exactly the union of the inserted spans. */
  lemma {:induction false} BuildCovers(ss: seq<Span>)
    ensures forall h :: CoversHalf(Build(ss), h) <==>
                        exists k :: 0 <= k < |ss| && ContainsHalf(Normalize(ss[k]), h)
    decreases |ss|
  {
    if ss != [] {
      var init := ss[..|ss| - 1];
      var last := ss[|ss| - 1];
      BuildCovers(init);
      MergeCoversHalf(Build(init), Normalize(last));
      forall h ensures CoversHalf(Build(ss), h) <==>
                       exists k :: 0 <= k < |ss| && ContainsHalf(Normalize(ss[k]), h) {
        if exists k :: 0 <= k < |ss| && ContainsHalf(Normalize(ss[k]), h) {
          var k :| 0 <= k < |ss| && ContainsHalf(Normalize(ss[k]), h);
          if k < |ss| - 1 {
            assert init[k] == ss[k];
          }
        }
        if exists k :: 0 <= k < |init| && ContainsHalf(Normalize(init[k]), h) {
          var k :| 0 <= k < |init| && ContainsHalf(Normalize(init[k]), h);
          assert ss[k] == init[k];
        }
      }
    }
  }

  /** Starting from an empty cell, adding the same spans in any order leaves
      the same list. */
  lemma BuildOrderIndependent(a: seq<Span>, b: seq<Span>)
    requires multiset(a) == multiset(b)
    ensures Build(a) == Build(b)
  {
    BuildCanonical(a);
    BuildCanonical(b);
    BuildCovers(a);
    BuildCovers(b);
    forall h ensures CoversHalf(Build(a), h) <==> CoversHalf(Build(b), h) {
      if exists k :: 0 <= k < |a| && ContainsHalf(Normalize(a[k]), h) {
        var k :| 0 <= k < |a| && ContainsHalf(Normalize(a[k]), h);
        assert a[k] in multiset(b);
        var k' :| 0 <= k' < |b| && b[k'] == a[k];
      }
      if exists k :: 0 <= k < |b| && ContainsHalf(Normalize(b[k]), h) {
        var k :| 0 <= k < |b| && ContainsHalf(Normalize(b[k]), h);
        assert b[k] in multiset(a);
        var k' :| 0 <= k' < |a| && a[k'] == b[k];
      }
    }
    CanonicalUnique(Build(a), Build(b));
  }
}

=== FILE: crop.dfy ===
/** The copy at the end of FilterEmptyEdge (Heightfield.cs:225-233): the
    cells of a window of the old grid written into a new flat array, read at
    x*Width + y of the old grid and written at i*newWidth + j of the new one. */
module Crop {
  import opened Cells
  import opened GridIndex

  /** The window FilterEmptyEdge keeps: columns StartX..EndX, rows StartY..EndY. */
  datatype Window = Window(StartX: int, EndX: int, StartY: int, EndY: int)

  /** newWidth and newLength of Heightfield.cs:225-226. */
  function Columns(w: Window): int {
    w.EndX - w.StartX + 1
  }

  function Rows(w: Window): int {
    w.EndY - w.StartY + 1
  }

  /** The copy stays inside both arrays: the new array has nw*nl slots and
      the copy writes slot i*nw + j for i < nw, j < nl, which fits exactly when
      nw <= nl; the last cell it reads, at (EndX, EndY), must lie inside the
      old array of size slots. */
  predicate CopyFits(w: Window, width: int, size: int) {
    Columns(w) <= 0 || Rows(w) <= 0
    || (Columns(w) <= Rows(w) && ColumnMajor(w.EndX, w.EndY, width) < size)
  }

  /** A window of a grid of the given width that starts inside it, whose copy
      fits. */
  predicate Ready(w: Window, width: int, size: int) {
    && 0 <= width && 0 <= w.StartX && 0 <= w.StartY
    && 0 <= Columns(w) && 0 <= Rows(w)
    && CopyFits(w, width, size)
  }

  /** Slot t of s holds the cell in slot k of src. */
  predicate Holds(s: seq<Cell?>, t: int, src: seq<Cell?>, k: int) {
    0 <= t < |s| && 0 <= k < |src| && s[t] == src[k]
  }

  /** Heightfield.cs:231: the write of position (i, j) of the window. */
  function Write(s: seq<Cell?>, src: seq<Cell?>, width: int, w: Window, i: int, j: int): (r: seq<Cell?>)
    requires Ready(w, width, |src|)
    requires 0 <= i < Columns(w) && 0 <= j < Rows(w) && |s| == Columns(w) * Rows(w)
    ensures |r| == |s|
    ensures Holds(r, ColumnMajor(i, j, Columns(w)), src, ColumnMajor(i + w.StartX, j + w.StartY, width))
    ensures forall u :: 0 <= u < |s| && u != ColumnMajor(i, j, Columns(w)) ==> r[u] == s[u]
  {
    ColumnMajorInRange(i, j, Columns(w), Rows(w));
    ColumnMajorMono(0, 0, i + w.StartX, j + w.StartY, width);
    ColumnMajorMono(i + w.StartX, j + w.StartY, w.EndX, w.EndY, width);
    s[ColumnMajor(i, j, Columns(w)) := src[ColumnMajor(i + w.StartX, j + w.StartY, width)]]
  }

  /** The new array once the loops of Heightfield.cs:227-233 have written
      every position before (i, j), column by column. */
  function Copied(src: seq<Cell?>, width: int, w: Window, i: int, j: int): (r: seq<Cell?>)
    requires Ready(w, width, |src|)
    requires 0 <= i <= Columns(w) && 0 <= j <= Rows(w) && (i == Columns(w) ==> j == 0)
    ensures |r| == Columns(w) * Rows(w)
    decreases i, j
  {
    if j == 0 then
      if i == 0 then
        MulLeq(0, Columns(w), Rows(w));
        seq(Columns(w) * Rows(w), _ => null)
      else Copied(src, width, w, i - 1, Rows(w))
    else Write(Copied(src, width, w, i, j - 1), src, width, w, i, j - 1)
  }

  /** What the copy leaves for a window of nw columns and nl rows: the first
      nw slots of each column i < nw hold the cells (StartX + i, StartY + j);
      as each column starts only nw slots after the one before, it overwrites
      the tail of that one, so only the last column keeps its tail; the slots
      after it stay null. */
  predicate CopiedWindow(s: seq<Cell?>, src: seq<Cell?>, width: int, w: Window) {
    var sx, sy, nw, nl := w.StartX, w.StartY, Columns(w), Rows(w);
    && |s| == nw * nl
    && (forall i, j :: 0 <= i < nw && 0 <= j < nw && j < nl ==>
          Holds(s, ColumnMajor(i, j, nw), src, ColumnMajor(i + sx, j + sy, width)))
    && var last := nw - 1;
    && (1 <= nw ==> forall j :: nw <= j < nl ==>
          Holds(s, ColumnMajor(last, j, nw), src, ColumnMajor(last + sx, j + sy, width)))
    && (1 <= nw ==> forall t :: ColumnMajor(last, nl, nw) <= t < |s| ==> s[t] == null)
  }

  /** Where the slots that are still null begin, once the positions before
      (i, j) are written. */
  function Front(w: Window, i: int, j: int): int {
    if i == 0 then j
    else if j < Rows(w) - Columns(w) then ColumnMajor(i, Rows(w) - Columns(w), Columns(w))
    else ColumnMajor(i, j, Columns(w))
  }

  /** The layout after the positions before (i, j) are written: the columns
      before i hold their first nw cells, column i its first j cells, the
      rest of column i's slots the tail of column i - 1, and the slots from
      Front(w, i, j) on are null. */
  predicate Partial(s: seq<Cell?>, src: seq<Cell?>, width: int, w: Window, i: int, j: int) {
    var sx, sy, nw, nl := w.StartX, w.StartY, Columns(w), Rows(w);
    && |s| == nw * nl
    && (forall i', j' :: 0 <= i' < i && 0 <= j' < nw && j' < nl ==>
          Holds(s, ColumnMajor(i', j', nw), src, ColumnMajor(i' + sx, j' + sy, width)))
    && (forall j' :: 0 <= j' < j ==>
          Holds(s, ColumnMajor(i, j', nw), src, ColumnMajor(i + sx, j' + sy, width)))
    && (1 <= i ==> forall j' :: j <= j' < nl - nw ==>
          Holds(s, ColumnMajor(i, j', nw), src, ColumnMajor(i - 1 + sx, j' + nw + sy, width)))
    && (forall t :: 0 <= t < |s| && Front(w, i, j) <= t ==> s[t] == null)
  }

  /** Writing position (i, j) extends the layout by one position. */
  lemma WriteStep(s: seq<Cell?>, src: seq<Cell?>, width: int, w: Window, i: int, j: int)
    requires Ready(w, width, |src|)
    requires 0 <= i < Columns(w) && 0 <= j < Rows(w)
    requires Partial(s, src, width, w, i, j)
    ensures Partial(Write(s, src, width, w, i, j), src, width, w, i, j + 1)
  {
    var sx, sy, nw, nl := w.StartX, w.StartY, Columns(w), Rows(w);
    var r := Write(s, src, width, w, i, j);
    var t := ColumnMajor(i, j, nw);
    forall i', j' | 0 <= i' < i && 0 <= j' < nw && j' < nl
      ensures Holds(r, ColumnMajor(i', j', nw), src, ColumnMajor(i' + sx, j' + sy, width))
    {
      ColumnsAreStacked(i', j', i, j, nw);
    }
    forall j' | 0 <= j' < j + 1
      ensures Holds(r, ColumnMajor(i, j', nw), src, ColumnMajor(i + sx, j' + sy, width))
    {
      if j' < j {
        assert ColumnMajor(i, j', nw) < t;
      }
    }
    if 1 <= i {
      forall j' | j + 1 <= j' < nl - nw
        ensures Holds(r, ColumnMajor(i, j', nw), src, ColumnMajor(i - 1 + sx, j' + nw + sy, width))
      {
        assert ColumnMajor(i, j', nw) > t;
      }
    }
    assert t < Front(w, i, j + 1) && Front(w, i, j) <= Front(w, i, j + 1);
    forall u | 0 <= u < |r| && Front(w, i, j + 1) <= u
      ensures r[u] == null
    {
    }
  }

  /** After the last row of column i the layout is the one before column
      i + 1: column i's first nw cells are in place and its tail sits in the
      first slots of column i + 1. */
  lemma NextColumn(s: seq<Cell?>, src: seq<Cell?>, width: int, w: Window, i: int)
    requires Ready(w, width, |src|)
    requires 0 <= i < Columns(w)
    requires Partial(s, src, width, w, i, Rows(w))
    ensures Partial(s, src, width, w, i + 1, 0)
  {
    var sx, sy, nw, nl := w.StartX, w.StartY, Columns(w), Rows(w);
    var next := i + 1;
    forall i', j' | 0 <= i' < next && 0 <= j' < nw && j' < nl
      ensures Holds(s, ColumnMajor(i', j', nw), src, ColumnMajor(i' + sx, j' + sy, width))
    {
    }
    forall j' | 0 <= j' < nl - nw
      ensures Holds(s, ColumnMajor(next, j', nw), src, ColumnMajor(i + sx, j' + nw + sy, width))
    {
      ColumnMajorNext(i, j', nw);
      assert Holds(s, ColumnMajor(i, j' + nw, nw), src, ColumnMajor(i + sx, j' + nw + sy, width));
    }
    if 1 <= nl {
      if 0 < nl - nw {
        ColumnMajorNext(i, nl - nw, nw);
      } else {
        ColumnMajorNext(i, 0, nw);
      }
      assert Front(w, next, 0) == Front(w, i, nl);
    }
    forall u | 0 <= u < |s| && Front(w, next, 0) <= u
      ensures s[u] == null
    {
    }
  }

  /** The layout Copied describes, position by position. */
  lemma {:induction false} CopiedPartial(src: seq<Cell?>, width: int, w: Window, i: int, j: int)
    requires Ready(w, width, |src|)
    requires 0 <= i <= Columns(w) && 0 <= j <= Rows(w) && (i == Columns(w) ==> j == 0)
    ensures Partial(Copied(src, width, w, i, j), src, width, w, i, j)
    decreases i, j
  {
    if j == 0 {
      if 0 < i {
        CopiedPartial(src, width, w, i - 1, Rows(w));
        NextColumn(Copied(src, width, w, i - 1, Rows(w)), src, width, w, i - 1);
      }
    } else {
      CopiedPartial(src, width, w, i, j - 1);
      WriteStep(Copied(src, width, w, i, j - 1), src, width, w, i, j - 1);
    }
  }

  /** Heightfield.cs:227-233: the finished copy has the layout CopiedWindow
      describes. */
  lemma CopiedLayout(src: seq<Cell?>, width: int, w: Window)
    requires Ready(w, width, |src|)
    ensures CopiedWindow(Copied(src, width, w, Columns(w), 0), src, width, w)
  {
    var sx, sy, nw, nl := w.StartX, w.StartY, Columns(w), Rows(w);
    var s := Copied(src, width, w, nw, 0);
    CopiedPartial(src, width, w, nw, 0);
    if 1 <= nw {
      var last := nw - 1;
      forall j | nw <= j < nl
        ensures Holds(s, ColumnMajor(last, j, nw), src, ColumnMajor(last + sx, j + sy, width))
      {
        ColumnMajorNext(last, j - nw, nw);
        assert Holds(s, ColumnMajor(nw, j - nw, nw), src, ColumnMajor(nw - 1 + sx, j - nw + nw + sy, width));
      }
      if 1 <= nl {
        if 0 < nl - nw {
          ColumnMajorNext(last, nl - nw, nw);
        } else {
          ColumnMajorNext(last, 0, nw);
        }
        assert Front(w, nw, 0) == ColumnMajor(last, nl, nw);
      } else {
        assert |s| == 0;
      }
    }
  }
}

=== FILE: grid_index.dfy ===
/** Integer helpers of the heightfield: the clamp used on the rasterization
    ranges and the two ways the code turns a grid position into an index into
    the flat cell array. */
module GridIndex {

  /** Integer clamp with the semantics of Mathf.Clamp(int, int, int): below the
      lower bound gives the lower bound, otherwise above the upper bound gives
      the upper bound. */
  function Clamp(value: int, min: int, max: int): (r: int)
    ensures min <= max ==> min <= r <= max
    ensures min <= value <= max ==> r == value
    ensures value < min ==> r == min
    ensures min <= value && max < value ==> r == max
  {
    if value < min then min
    else if value > max then max
    else value
  }

  /** Index of column x in row z as rasterization writes it (z*Width + x). */
  function RowMajor(x: int, z: int, width: int): int {
    z * width + x
  }

  /** Index of position (x, y) as Get, ClimbFilter and the crop copy read it
      (x*Width + y). */
  function ColumnMajor(x: int, y: int, width: int): int {
    x * width + y
  }

  lemma MulLeq(a: int, b: int, c: int)
    requires a <= b && 0 <= c
    ensures a * c <= b * c
  {
    var d := b - a;
    assert b * c == a * c + d * c;
  }

  /** Rows never overlap: row z ends before row z+1 starts. */
  lemma RowsAreStacked(x: int, z: int, x': int, z': int, width: int)
    requires 0 <= x < width && 0 <= x' < width && z < z'
    ensures RowMajor(x, z, width) < RowMajor(x', z', width)
  {
    MulLeq(z + 1, z', width);
  }

  /** Heightfield.cs:120: when x is in [0, width) and z in [0, length), the
      rasterization index is inside an array of width*length cells. */
  lemma RowMajorInRange(x: int, z: int, width: int, length: int)
    requires 0 <= x < width && 0 <= z < length
    ensures 0 <= RowMajor(x, z, width) < width * length
  {
    MulLeq(0, z, width);
    MulLeq(z + 1, length, width);
  }

  /** Distinct grid positions get distinct rasterization indices. */
  lemma RowMajorInjective(x: int, z: int, x': int, z': int, width: int)
    requires 0 <= x < width && 0 <= x' < width
    requires RowMajor(x, z, width) == RowMajor(x', z', width)
    ensures x == x' && z == z'
  {
    if z < z' {
      RowsAreStacked(x, z, x', z', width);
    } else if z' < z {
      RowsAreStacked(x', z', x, z, width);
    }
  }

  /** Every index of the flat array is the rasterization index of exactly one
      in-grid position: the one in row k / width, column k % width. */
  lemma RowMajorOnto(k: int, width: int, length: int)
    requires 1 <= width && 0 <= k < width * length
    ensures 0 <= k % width < width && 0 <= k / width < length
    ensures RowMajor(k % width, k / width, width) == k
  {
    var z := k / width;
    if z >= length {
      MulLeq(length, z, width);
    }
  }

  /** Heightfield.cs:267: the index x*width + y of an in-grid position stays
      inside width*length cells when width <= length or width <= 1. */
  lemma ColumnMajorInRange(x: int, y: int, width: int, length: int)
    requires 0 <= x < width && 0 <= y < length
    requires width <= length || width <= 1
    ensures 0 <= ColumnMajor(x, y, width) < width * length
  {
    MulLeq(0, x, width);
    if width <= 1 {
      assert x == 0;
    } else {
      MulLeq(x, width - 1, width);
      MulLeq(width, length, width - 1);
      assert (width - 1) * width <= (width - 1) * length;
      assert width * length == (width - 1) * length + length;
    }
  }

  /** ... and for every other shape the last in-grid position escapes it. */
  lemma ColumnMajorEscapes(width: int, length: int)
    requires 1 <= length < width
    ensures ColumnMajor(width - 1, length - 1, width) >= width * length
  {
    var a, b := width - 1, width - length;
    assert a >= 1 && b >= 1;
    MulLeq(1, a, b);
    assert (width - 1) * width + length - 1 - width * length == a * b - 1;
  }

  /** x*width + y grows with x and with y. */
  lemma ColumnMajorMono(x: int, y: int, x': int, y': int, width: int)
    requires 0 <= x <= x' && y <= y' && 0 <= width
    ensures ColumnMajor(x, y, width) <= ColumnMajor(x', y', width)
  {
    MulLeq(x, x', width);
  }

  /** With 0 <= y < width, everything in column x comes before column x'. */
  lemma ColumnsAreStacked(x: int, y: int, x': int, y': int, width: int)
    requires x < x' && 0 <= y < width && 0 <= y'
    ensures ColumnMajor(x, y, width) < ColumnMajor(x', y', width)
  {
    MulLeq(x + 1, x', width);
  }

  /** Position y + width of column x is position y of column x + 1. */
  lemma ColumnMajorNext(x: int, y: int, width: int)
    ensures ColumnMajor(x, y + width, width) == ColumnMajor(x + 1, y, width)
  {
    assert (x + 1) * width == x * width + width;
  }
}

=== FILE: height_field_grid.dfy ===
/** The byte height map of the navigation grid (HeightFieldGrid.cs): one row
    of bytes per y, each row of its own length. */
module HeightFieldGrids {

  newtype byte = b: int | 0 <= b < 256

  /** What Get returns for a position the grid does not have. */
  const Missing: byte := 0xFF

  /** Column x of row y exists (rows may differ in length). */
  predicate InHeights(rows: seq<seq<byte>>, x: int, y: int) {
    0 <= y < |rows| && 0 <= x < |rows[y]|
  }

  /** HeightFieldGrid.cs:11-22: the byte at (x, y); 0xFF wherever the grid has
      no such position. */
  function Get(rows: seq<seq<byte>>, x: int, y: int): (r: byte)
    ensures !InHeights(rows, x, y) ==> r == Missing
    ensures InHeights(rows, x, y) ==> r == rows[y][x]
  {
    if 0 <= y < |rows| then
      var row := rows[y];
      if 0 <= x < |row| then row[x] else Missing
    else Missing
  }

  /** Any answer other than 0xFF is a stored byte of the grid. */
  lemma StoredUnlessMissing(rows: seq<seq<byte>>, x: int, y: int)
    requires Get(rows, x, y) != Missing
    ensures InHeights(rows, x, y) && Get(rows, x, y) == rows[y][x]
  {
  }

  /** The sentinel is also a storable value: a grid holding 0xFF answers
      exactly as it does for a position it does not have, so a caller cannot
      tell the two apart from the result. */
  lemma MissingIsAmbiguous()
    ensures var rows := [[Missing]];
      InHeights(rows, 0, 0) && !InHeights(rows, 1, 0) && Get(rows, 0, 0) == Get(rows, 1, 0)
  {
  }
}

=== FILE: heightfield.dfy ===
/** The voxel heightfield: a Width x Length grid of cells, each holding the
    solid spans of its column, and the integer part of its filters. */
module Heightfields {
  import opened Cells
  import opened GridIndex
  import opened Crop

  /** The exceptions the C# code can raise on its own data. */
  datatype Error = IndexOutOfRange | NullCell

  datatype Option<T> = None | Some(value: T)

  datatype Result<T> = Ok(value: T) | Err(error: Error)

  /** How a method that returns nothing ends: normally, or by an exception. */
  datatype Outcome = Pass | Fail(error: Error)

  /** What ToValidHeight stores for a cell: the bottom of the bounds when the
      cell holds nothing, else the top voxel of its lowest span (to be scaled
      by CellSize and offset by the bottom of the bounds). */
  datatype Floor = Base | Top(voxel: int)

  /** An inclusive range of grid indices [Lo, Hi]. */
  datatype Extent = Extent(Lo: int, Hi: int)

  /** What the integer skeleton of RasterizeTriangle sees of a triangle:
      whether its box overlaps the bounds (Heightfield.cs:33), its row range
      before clamping (41-42), for each row the column range of its clipped
      row polygon, or None when clipping leaves fewer than three vertices
      (56-61, 73-74), and for each cell the snapped span of its clipped
      polygon, or None when clipping empties it or it lies above or below the
      bounds (84-117). */
  datatype Triangle = Triangle(
    Overlaps: bool,
    ZMin: int,
    ZMax: int,
    RowExtent: int -> Option<Extent>,
    Fragment: (int, int) -> Option<Span>)

  /** What reading the cell at (x, y) the way ClimbFilter does gives. */
  datatype Reading = Threw(error: Error) | Empty | Filled

  /** The spans UnderGroundFilter leaves in a cell: the run of spans at the
      front of the list whose top lies below the threshold is removed, and the
      list is kept from the first span that reaches the threshold on. */
  function DropBelow(spans: seq<Span>, threshold: int): (r: seq<Span>)
    ensures |r| <= |spans| && r == spans[|spans| - |r|..]
    ensures forall k :: 0 <= k < |spans| - |r| ==> spans[k].Max < threshold
    ensures r != [] ==> r[0].Max >= threshold
    decreases |spans|
  {
    if spans != [] && spans[0].Max < threshold then DropBelow(spans[1..], threshold)
    else spans
  }

  /** Heightfield.cs:277-284: the value ToValidHeight stores for a cell with
      the given spans. */
  function FloorOf(spans: seq<Span>): (r: Floor)
    ensures r == Base <==> spans == []
    ensures r.Top? ==> r.voxel == spans[0].Max
  {
    if spans == [] then Base else Top(spans[0].Max)
  }

  /** Heightfield.cs:6-289. Width, Length, Height, CellSize and the Cells array
      are set only by the constructors; the cells themselves change. */
  class Heightfield {
    const Width: int
    const Length: int
    const Height: int
    const CellSize: real
    const Cells: array<Cell?>

    /** The array has one slot per grid position. */
    ghost predicate Shaped() {
      0 <= Width && 0 <= Length && Cells.Length == Width * Length
    }

    /** Every slot holds a cell (a cropped heightfield can have empty slots). */
    ghost predicate Complete()
      reads Cells
    {
      forall k :: 0 <= k < Cells.Length ==> Cells[k] != null
    }

    /** No cell object sits in two slots (a cropped heightfield can share). */
    ghost predicate Separate()
      reads Cells
    {
      forall k, m :: 0 <= k < m < Cells.Length ==> Cells[k] != Cells[m]
    }

    /** The cell objects the array refers to. */
    ghost function Objects(): set<Cell>
      reads Cells
    {
      set k | 0 <= k < Cells.Length && Cells[k] != null :: Cells[k]
    }

    predicate InGrid(x: int, y: int) {
      0 <= x < Width && 0 <= y < Length
    }

    /** Heightfield.cs:19-29, with the dimensions already computed from the
        bounds: one fresh, empty cell of the given height per grid position. */
    constructor (width: int, length: int, height: int, cellSize: real)
      requires 0 <= width && 0 <= length
      ensures Width == width && Length == length && Height == height && CellSize == cellSize
      ensures Shaped() && Complete() && Separate()
      ensures fresh(Cells) && fresh(Objects())
      ensures forall k :: 0 <= k < Cells.Length ==> Cells[k].Spans == [] && Cells[k].Height == height
    {
      Width := width;
      Length := length;
      Height := height;
      CellSize := cellSize;
      MulLeq(0, width, length);
      var cells := new Cell?[width * length];
      var i := 0;
      while i < cells.Length
        invariant 0 <= i <= cells.Length
        invariant forall k :: 0 <= k < i ==> cells[k] != null && fresh(cells[k])
        invariant forall k :: 0 <= k < i ==> cells[k].Spans == [] && cells[k].Height == height
        invariant forall k, m :: 0 <= k < m < i ==> cells[k] != cells[m]
      {
        cells[i] := new Cell(height);
        i := i + 1;
      }
      Cells := cells;
    }

    /** Heightfield.cs:15-17 and 237-245: the field-by-field construction
        FilterEmptyEdge uses for the cropped heightfield. */
    constructor Cropped(width: int, length: int, height: int, cellSize: real, cells: array<Cell?>)
      ensures Width == width && Length == length && Height == height && CellSize == cellSize
      ensures Cells == cells
    {
      Width := width;
      Length := length;
      Height := height;
      CellSize := cellSize;
      Cells := cells;
    }

    /** The cell at column x of row z, where rasterization writes it. */
    ghost function At(x: int, z: int): (c: Cell)
      requires Shaped() && Complete() && InGrid(x, z)
      reads Cells
      ensures 0 <= RowMajor(x, z, Width) < Cells.Length
      ensures c == Cells[RowMajor(x, z, Width)] && c in Objects()
    {
      RowMajorInRange(x, z, Width, Length);
      Cells[RowMajor(x, z, Width)]
    }

    /** A shaped heightfield has no cells exactly when it has no columns or no
        rows. */
    lemma NoCells()
      requires Shaped()
      ensures Cells.Length == 0 <==> Width == 0 || Length == 0
    {
      if 1 <= Width && 1 <= Length {
        MulLeq(1, Length, Width);
      }
    }

    /** Two grid positions of a heightfield whose slots hold distinct cells
        hold distinct cells. */
    lemma AtDistinct(x: int, z: int, x': int, z': int)
      requires Shaped() && Complete() && Separate() && InGrid(x, z) && InGrid(x', z')
      requires x != x' || z != z'
      ensures At(x, z) != At(x', z')
    {
      var k, k' := RowMajor(x, z, Width), RowMajor(x', z', Width);
      if k == k' {
        RowMajorInjective(x, z, x', z', Width);
      }
    }

    /** Heightfield.cs:43-46 and 76-79: row z and column x are inside the
        clamped ranges of the triangle, and the cell there gets a span. */
    predicate Targeted(t: Triangle, x: int, z: int) {
      && t.Overlaps
      && Clamp(t.ZMin, 0, Length - 1) <= z <= Clamp(t.ZMax, 0, Length - 1)
      && t.RowExtent(z).Some?
      && Clamp(t.RowExtent(z).value.Lo, 0, Width - 1) <= x <= Clamp(t.RowExtent(z).value.Hi, 0, Width - 1)
      && t.Fragment(x, z).Some?
    }

    /** The spans of every slot (none for an empty slot). */
    ghost function Snapshot(): (r: seq<seq<Span>>)
      reads Cells, Objects()
      ensures |r| == Cells.Length
      ensures forall j :: 0 <= j < Cells.Length && Cells[j] != null ==> r[j] == Cells[j].Spans
    {
      seq(Cells.Length, j requires 0 <= j < Cells.Length reads Cells, Objects() =>
        if Cells[j] == null then [] else Cells[j].Spans)
    }

    /** The cells of the targeted positions before (x, z) in the loop order (z
        outer, x inner) have their span added to the spans they held in orig;
        every other cell still holds its spans of orig. */
    ghost predicate RasterizedTo(t: Triangle, orig: seq<seq<Span>>, x: int, z: int)
      requires Shaped() && Complete() && |orig| == Cells.Length
      reads Cells, Objects()
    {
      forall x', z' :: InGrid(x', z') ==>
        At(x', z').Spans ==
          if (z' < z || (z' == z && x' < x)) && Targeted(t, x', z')
          then Merge(orig[RowMajor(x', z', Width)], Normalize(t.Fragment(x', z').value))
          else orig[RowMajor(x', z', Width)]
    }

    /** A position that gets no span leaves the cells as they are. */
    lemma SkipCell(t: Triangle, orig: seq<seq<Span>>, x: int, z: int)
      requires Shaped() && Complete() && |orig| == Cells.Length
      requires RasterizedTo(t, orig, x, z) && !Targeted(t, x, z)
      ensures RasterizedTo(t, orig, x + 1, z)
    {
    }

    /** Once no position of row z from x on gets a span, the row is done. */
    lemma RowDone(t: Triangle, orig: seq<seq<Span>>, x: int, z: int)
      requires Shaped() && Complete() && |orig| == Cells.Length
      requires RasterizedTo(t, orig, x, z)
      requires forall x' :: x <= x' ==> !Targeted(t, x', z)
      ensures RasterizedTo(t, orig, 0, z + 1)
    {
      forall x', z' | InGrid(x', z')
        ensures At(x', z').Spans ==
          if z' < z + 1 && Targeted(t, x', z')
          then Merge(orig[RowMajor(x', z', Width)], Normalize(t.Fragment(x', z').value))
          else orig[RowMajor(x', z', Width)]
      {
        assert z' == z && Targeted(t, x', z') ==> x' < x;
      }
    }

    /** Heightfield.cs:79-121: the columns of row z. On a heightfield without
        cells the first span to add throws. */
    method RasterizeRow(t: Triangle, z: int, ghost orig: seq<seq<Span>>) returns (r: Outcome)
      requires Shaped() && Complete() && Separate() && |orig| == Cells.Length
      requires t.Overlaps && Clamp(t.ZMin, 0, Length - 1) <= z <= Clamp(t.ZMax, 0, Length - 1)
      requires RasterizedTo(t, orig, 0, z)
      modifies Objects()
      ensures r.Fail? ==> r.error == IndexOutOfRange && Cells.Length == 0 && exists x :: Targeted(t, x, z)
      ensures r.Pass? ==> RasterizedTo(t, orig, 0, z + 1)
      ensures r.Pass? && Cells.Length == 0 ==> forall x :: !Targeted(t, x, z)
    {
      var extent := t.RowExtent(z);
      if extent.None? {
        RowDone(t, orig, 0, z);
        return Pass;
      }
      var x0 := Clamp(extent.value.Lo, 0, Width - 1);
      var x1 := Clamp(extent.value.Hi, 0, Width - 1);
      var x := x0;
      while x <= x1
        invariant x0 <= x && (x0 <= x1 ==> x <= x1 + 1)
        invariant RasterizedTo(t, orig, x, z)
        invariant Cells.Length == 0 ==> forall x' :: x' < x ==> !Targeted(t, x', z)
      {
        var fragment := t.Fragment(x, z);
        if fragment.Some? {
          var k := z * Width + x;
          if !(0 <= k < Cells.Length) {
            NoCells();
            if 1 <= Width && 1 <= Length {
              RowMajorInRange(x, z, Width, Length);
            }
            assert Targeted(t, x, z);
            return Fail(IndexOutOfRange);
          }
          AddAt(t, x, z, orig);
        } else {
          SkipCell(t, orig, x, z);
        }
        x := x + 1;
      }
      RowDone(t, orig, x, z);
      return Pass;
    }

    /** Heightfield.cs:120: the span of the cell at (x, z) is added to it; no
        other cell changes. */
    method AddAt(t: Triangle, x: int, z: int, ghost orig: seq<seq<Span>>)
      requires Shaped() && Complete() && Separate() && |orig| == Cells.Length
      requires RasterizedTo(t, orig, x, z) && Targeted(t, x, z)
      requires 0 <= z * Width + x < Cells.Length
      modifies Objects()
      ensures RasterizedTo(t, orig, x + 1, z)
    {
      var k := z * Width + x;
      NoCells();
      assert InGrid(x, z);
      assert At(x, z) == Cells[k];
      ghost var objects := Objects();
      Cells[k].AddSpan(t.Fragment(x, z).value);
      assert Objects() == objects;
      forall x', z' | InGrid(x', z')
        ensures At(x', z').Spans ==
          if (z' < z || (z' == z && x' < x + 1)) && Targeted(t, x', z')
          then Merge(orig[RowMajor(x', z', Width)], Normalize(t.Fragment(x', z').value))
          else orig[RowMajor(x', z', Width)]
      {
        if x' != x || z' != z {
          AtDistinct(x, z, x', z');
        }
      }
    }

    /** Heightfield.cs:30-123 with the float geometry given as t: every cell
        in the clamped row and column ranges whose clipped polygon leaves a
        span gets that span added, once. Only a heightfield without cells
        throws, at the first span it would add. */
    method RasterizeTriangle(t: Triangle) returns (r: Outcome)
      requires Shaped() && Complete() && Separate()
      modifies Objects()
      ensures r.Fail? <==> Cells.Length == 0 && exists x, z :: Targeted(t, x, z)
      ensures r.Fail? ==> r.error == IndexOutOfRange
      ensures forall x, z :: InGrid(x, z) ==>
        At(x, z).Spans ==
          if Targeted(t, x, z) then Merge(old(At(x, z).Spans), Normalize(t.Fragment(x, z).value))
          else old(At(x, z).Spans)
    {
      ghost var orig := Snapshot();
      if !t.Overlaps {
        return Pass;
      }
      var z0 := Clamp(t.ZMin, 0, Length - 1);
      var z1 := Clamp(t.ZMax, 0, Length - 1);
      var z := z0;
      while z <= z1
        invariant z0 <= z && (z0 <= z1 ==> z <= z1 + 1)
        invariant forall k :: 0 <= k < Cells.Length ==> orig[k] == old(Cells[k].Spans)
        invariant RasterizedTo(t, orig, 0, z)
        invariant Cells.Length == 0 ==> forall x', z' :: z' < z ==> !Targeted(t, x', z')
      {
        ghost var objects := Objects();
        r := RasterizeRow(t, z, orig);
        assert Objects() == objects;
        if r.Fail? {
          return;
        }
        z := z + 1;
      }
      return Pass;
    }

    /** Index of the first empty slot, or Cells.Length when there is none. */
    ghost function FirstNull(): (n: int)
      reads Cells
      ensures 0 <= n <= Cells.Length
      ensures forall k :: 0 <= k < n ==> Cells[k] != null
      ensures n < Cells.Length ==> Cells[n] == null
    {
      FirstNullFrom(0)
    }

    ghost function FirstNullFrom(i: int): (n: int)
      requires 0 <= i <= Cells.Length
      reads Cells
      ensures i <= n <= Cells.Length
      ensures forall k :: i <= k < n ==> Cells[k] != null
      ensures n < Cells.Length ==> Cells[n] == null
      decreases Cells.Length - i
    {
      if i == Cells.Length || Cells[i] == null then i else FirstNullFrom(i + 1)
    }

    /** The first slot, from i on, that holds the cell of slot j. */
    ghost function FirstSlotFrom(j: int, i: int): (r: int)
      requires 0 <= i <= j < Cells.Length
      reads Cells
      ensures i <= r <= j && Cells[r] == Cells[j]
      ensures forall m :: i <= m < r ==> Cells[m] != Cells[j]
      decreases j - i
    {
      if Cells[i] == Cells[j] then i else FirstSlotFrom(j, i + 1)
    }

    /** The cell in slot j is also in one of the first n slots. */
    ghost predicate Reached(j: int, n: int)
      requires 0 <= j < Cells.Length
      reads Cells
    {
      FirstSlotFrom(j, 0) < n
    }

    lemma ReachedStep(j: int, n: int)
      requires 0 <= j < Cells.Length && 0 <= n < Cells.Length
      ensures Reached(j, n + 1) <==> Reached(j, n) || Cells[n] == Cells[j]
    {
      var f := FirstSlotFrom(j, 0);
      if Cells[n] == Cells[j] {
        assert f <= n;
      }
    }

    /** Heightfield.cs:139-150: the inner loop over one cell's spans. Its
        index goes back to 0 after each removal, so it only ever looks at the
        front of the list. */
    static method DropUnderground(cell: Cell, threshold: int)
      modifies cell
      ensures cell.Spans == DropBelow(old(cell.Spans), threshold)
    {
      var i := 0;
      while i < |cell.Spans|
        invariant i == 0
        invariant DropBelow(cell.Spans, threshold) == DropBelow(old(cell.Spans), threshold)
        decreases |cell.Spans|
      {
        if cell.Spans[i].Max < threshold {
          assert cell.Spans[..i] + cell.Spans[i + 1..] == cell.Spans[1..];
          cell.Spans := cell.Spans[..i] + cell.Spans[i + 1..];
          i := i - 1;
        } else {
          break;
        }
        i := i + 1;
      }
    }

    /** One turn of the foreach at Heightfield.cs:137-151: the cell in slot k
        is filtered; every slot that shares it sees the change. orig holds
        each slot's spans before the whole filter. */
    method FilterSlot(k: int, threshold: int, ghost orig: seq<seq<Span>>)
      requires 0 <= k < Cells.Length && Cells[k] != null && |orig| == Cells.Length
      requires forall j :: 0 <= j < Cells.Length && Cells[j] == Cells[k] ==> orig[j] == orig[k]
      requires forall j :: 0 <= j < Cells.Length && Cells[j] != null ==>
        Cells[j].Spans == if Reached(j, k) then DropBelow(orig[j], threshold) else orig[j]
      modifies Cells[k]
      ensures forall j :: 0 <= j < Cells.Length && Cells[j] != null ==>
        Cells[j].Spans == if Reached(j, k + 1) then DropBelow(orig[j], threshold) else orig[j]
    {
      var cell := Cells[k];
      DropUnderground(cell, threshold);
      forall j | 0 <= j < Cells.Length && Cells[j] != null
        ensures Cells[j].Spans == if Reached(j, k + 1) then DropBelow(orig[j], threshold) else orig[j]
      {
        ReachedStep(j, k);
      }
    }

    /** Heightfield.cs:134-152, with the threshold already converted to a
        voxel index. The cells are visited in array order; a cell met again
        through another slot is filtered again, which changes nothing. An
        empty slot throws, leaving the cells of the earlier slots filtered. */
    method UnderGroundFilter(threshold: int) returns (r: Outcome)
      modifies Objects()
      ensures r.Pass? <==> Complete()
      ensures r.Fail? ==> r.error == NullCell
      ensures forall j :: 0 <= j < Cells.Length && Cells[j] != null ==>
        Cells[j].Spans == if Reached(j, FirstNull())
                          then DropBelow(old(Cells[j].Spans), threshold)
                          else old(Cells[j].Spans)
      ensures r.Pass? ==> forall j :: 0 <= j < Cells.Length ==>
        Cells[j].Spans == DropBelow(old(Cells[j].Spans), threshold)
    {
      ghost var orig := Snapshot();
      var k := 0;
      while k < Cells.Length
        invariant 0 <= k <= FirstNull()
        invariant forall j :: 0 <= j < Cells.Length && Cells[j] != null ==> orig[j] == old(Cells[j].Spans)
        invariant forall j :: 0 <= j < Cells.Length && Cells[j] != null ==>
          Cells[j].Spans == if Reached(j, k) then DropBelow(orig[j], threshold) else orig[j]
      {
        if Cells[k] == null {
          assert k == FirstNull();
          return Fail(NullCell);
        }
        assert k < FirstNull();
        FilterSlot(k, threshold, orig);
        k := k + 1;
      }
      assert FirstNull() == Cells.Length;
      return Pass;
    }

    /** Heightfield.cs:263-268: null outside the grid, else the slot at
        x*Width + y, which the array may not have. */
    function Get(x: int, y: int): (r: Result<Cell?>)
      reads Cells
      ensures !InGrid(x, y) ==> r == Ok(null)
      ensures InGrid(x, y) && 0 <= ColumnMajor(x, y, Width) < Cells.Length ==>
        r == Ok(Cells[ColumnMajor(x, y, Width)])
      ensures InGrid(x, y) && !(0 <= ColumnMajor(x, y, Width) < Cells.Length) ==>
        r == Err(IndexOutOfRange)
      ensures r.Ok? && r.value != null ==> r.value in Objects()
    {
      if !InGrid(x, y) then Ok(null)
      else
        var k := ColumnMajor(x, y, Width);
        if 0 <= k < Cells.Length then Ok(Cells[k]) else Err(IndexOutOfRange)
    }

    /** Get never throws on a grid that is no wider than it is long, at most
        one column wide, or without rows. */
    lemma NarrowGet()
      requires Shaped()
      ensures Width <= Length || Width <= 1 || Length == 0 ==> forall x, y :: Get(x, y).Ok?
    {
      if Width <= Length || Width <= 1 || Length == 0 {
        forall x, y
          ensures Get(x, y).Ok?
        {
          if InGrid(x, y) {
            ColumnMajorInRange(x, y, Width, Length);
          }
        }
      }
    }

    /** On every other non-empty grid the last grid position is out of range. */
    lemma WideGet()
      requires Shaped() && 1 <= Length < Width
      ensures Get(Width - 1, Length - 1).Err?
    {
      ColumnMajorEscapes(Width, Length);
    }

    /** What the scans of FilterEmptyEdge see at (x, y) through Get: a throw,
        a null or empty cell, or a cell holding spans. */
    ghost function Look(x: int, y: int): Reading
      reads Cells, Objects()
    {
      match Get(x, y)
      case Err(e) => Threw(e)
      case Ok(c) => if c == null || |c.Spans| == 0 then Empty else Filled
    }

    /** Position t of a line: row t of column `line` when vertical, else
        column t of row `line`. */
    ghost function LookOn(vertical: bool, line: int, t: int): Reading
      reads Cells, Objects()
    {
      if vertical then Look(line, t) else Look(t, line)
    }

    /** Every position lo..hi of the line is null or empty. */
    ghost predicate LineClear(vertical: bool, line: int, lo: int, hi: int)
      reads Cells, Objects()
    {
      forall t :: lo <= t <= hi ==> LookOn(vertical, line, t) == Empty
    }

    /** Scanning the line from lo, a cell holding spans comes before any throw. */
    ghost predicate LineHit(vertical: bool, line: int, lo: int, hi: int)
      reads Cells, Objects()
    {
      exists t :: lo <= t <= hi && LookOn(vertical, line, t) == Filled && LineClear(vertical, line, lo, t - 1)
    }

    /** Scanning the line from lo, Get throws before any cell holding spans. */
    ghost predicate LineFails(vertical: bool, line: int, lo: int, hi: int)
      reads Cells, Objects()
    {
      exists t :: lo <= t <= hi && LookOn(vertical, line, t).Threw? && LineClear(vertical, line, lo, t - 1)
    }

    /** Heightfield.cs:162-171 (repeated at 178-187, 194-203 and 210-219):
        whether every cell of a line between lo and hi is null or empty. The
        scan stops at the first occupied cell. */
    method ScanLine(vertical: bool, line: int, lo: int, hi: int) returns (r: Result<bool>)
      ensures r == Ok(true) <==> LineClear(vertical, line, lo, hi)
      ensures r == Ok(false) <==> LineHit(vertical, line, lo, hi)
      ensures r.Err? <==> LineFails(vertical, line, lo, hi)
      ensures r.Err? ==> r.error == IndexOutOfRange
    {
      var j := lo;
      while j <= hi
        invariant lo <= j && (lo <= hi ==> j <= hi + 1)
        invariant LineClear(vertical, line, lo, j - 1)
      {
        var cell := if vertical then Get(line, j) else Get(j, line);
        if cell.Err? {
          assert LookOn(vertical, line, j).Threw?;
          return Err(cell.error);
        }
        if cell.value != null && |cell.value.Spans| > 0 {
          assert LookOn(vertical, line, j) == Filled;
          return Ok(false);
        }
        assert LookOn(vertical, line, j) == Empty;
        j := j + 1;
      }
      return Ok(true);
    }

    /** Where the forward scan over the n lines of one direction stops, each
        line read from lo to hi: at the first line that is not clear, or at the
        last line when every line is clear; at 0 when there are no lines. */
    ghost predicate FrontStop(vertical: bool, n: int, start: int, lo: int, hi: int)
      reads Cells, Objects()
    {
      if n <= 0 then start == 0
      else
        && 0 <= start < n
        && (forall l :: 0 <= l < start ==> LineClear(vertical, l, lo, hi))
        && (LineClear(vertical, start, lo, hi) || LineHit(vertical, start, lo, hi))
        && (start < n - 1 ==> LineHit(vertical, start, lo, hi))
    }

    /** Where the backward scan from line n - 1 down to line start + 1 stops:
        at the last line that is not clear, or at start + 1 when every line
        above start is clear (the scan has then read line start + 1 and found it
        clear); at n - 1 when there is no line above start. */
    ghost predicate BackStop(vertical: bool, n: int, start: int, end: int, lo: int, hi: int)
      reads Cells, Objects()
    {
      if n <= start + 1 then end == n - 1
      else
        && start < end < n
        && (forall l :: end < l < n ==> LineClear(vertical, l, lo, hi))
        && (LineClear(vertical, end, lo, hi) || LineHit(vertical, end, lo, hi))
        && (start + 1 < end ==> LineHit(vertical, end, lo, hi))
    }

    /** The lines start..end the two scans of one direction keep. */
    ghost predicate Bracket(vertical: bool, n: int, start: int, end: int, lo: int, hi: int)
      reads Cells, Objects()
    {
      FrontStop(vertical, n, start, lo, hi) && BackStop(vertical, n, start, end, lo, hi)
    }

    /** Heightfield.cs:160-175 (columns) and 192-207 (rows): the forward scan. */
    method ScanFront(vertical: bool, n: int, lo: int, hi: int) returns (r: Result<int>)
      ensures r.Ok? ==> FrontStop(vertical, n, r.value, lo, hi)
      ensures r.Err? ==> r.error == IndexOutOfRange && exists x, y :: Get(x, y).Err?
    {
      var start, end := 0, n - 1;
      var i := start;
      while i <= end
        invariant 0 <= i <= if 0 < n then n else 0
        invariant forall l :: 0 <= l < i ==> LineClear(vertical, l, lo, hi)
        invariant start == if i == 0 then 0 else i - 1
      {
        ghost var objects := Objects();
        var empty := ScanLine(vertical, i, lo, hi);
        assert Objects() == objects;
        if empty.Err? {
          ghost var t :| lo <= t <= hi && LookOn(vertical, i, t).Threw?;
          assert if vertical then Get(i, t).Err? else Get(t, i).Err?;
          return Err(empty.error);
        }
        start := i;
        if !empty.value {
          break;
        }
        i := i + 1;
      }
      return Ok(start);
    }

    /** Heightfield.cs:176-191 (columns) and 208-223 (rows): the backward scan,
        which stops above the line the forward scan kept. */
    method ScanBack(vertical: bool, n: int, start: int, lo: int, hi: int) returns (r: Result<int>)
      ensures r.Ok? ==> BackStop(vertical, n, start, r.value, lo, hi)
      ensures r.Err? ==> r.error == IndexOutOfRange && exists x, y :: Get(x, y).Err?
    {
      var end := n - 1;
      var i := end;
      while i > start
        invariant start <= i <= n - 1 || i == n - 1
        invariant forall l :: i < l < n ==> LineClear(vertical, l, lo, hi)
        invariant end == if i == n - 1 then n - 1 else i + 1
      {
        ghost var objects := Objects();
        var empty := ScanLine(vertical, i, lo, hi);
        assert Objects() == objects;
        if empty.Err? {
          ghost var t :| lo <= t <= hi && LookOn(vertical, i, t).Threw?;
          assert if vertical then Get(i, t).Err? else Get(t, i).Err?;
          return Err(empty.error);
        }
        end := i;
        if !empty.value {
          break;
        }
        i := i - 1;
      }
      return Ok(end);
    }

    /** Heightfield.cs:160-191 (columns) and 192-223 (rows): both scans of one
        direction. */
    method Shrink(vertical: bool, n: int, lo: int, hi: int) returns (r: Result<Extent>)
      ensures r.Ok? ==> Bracket(vertical, n, r.value.Lo, r.value.Hi, lo, hi)
      ensures r.Err? ==> r.error == IndexOutOfRange && exists x, y :: Get(x, y).Err?
    {
      ghost var objects := Objects();
      var start := ScanFront(vertical, n, lo, hi);
      if start.Err? {
        return Err(start.error);
      }
      assert Objects() == objects;
      var end := ScanBack(vertical, n, start.value, lo, hi);
      if end.Err? {
        return Err(end.error);
      }
      assert Objects() == objects;
      return Ok(Extent(start.value, end.value));
    }

    /** The window FilterEmptyEdge keeps: the columns are bracketed reading
        each whole column, the rows reading each row across the kept columns. */
    ghost predicate EdgeWindow(w: Window)
      reads Cells, Objects()
    {
      && Bracket(true, Width, w.StartX, w.EndX, 0, Length - 1)
      && Bracket(false, Length, w.StartY, w.EndY, w.StartX, w.EndX)
    }

    /** Heightfield.cs:156-223: the four scans for empty border lines. They
        read the cells through Get, which throws only on a grid with rows that
        is wider than it is long. */
    method EmptyEdges() returns (r: Result<Window>)
      ensures r.Ok? ==> EdgeWindow(r.value)
      ensures r.Err? ==> r.error == IndexOutOfRange
      ensures Shaped() && (Width <= Length || Width <= 1 || Length == 0) ==> r.Ok?
    {
      if Shaped() {
        NarrowGet();
      }
      ghost var objects := Objects();
      var columns := Shrink(true, Width, 0, Length - 1);
      if columns.Err? {
        return Err(columns.error);
      }
      assert Objects() == objects;
      var rows := Shrink(false, Length, columns.value.Lo, columns.value.Hi);
      if rows.Err? {
        return Err(rows.error);
      }
      assert Objects() == objects;
      return Ok(Window(columns.value.Lo, columns.value.Hi, rows.value.Lo, rows.value.Hi));
    }

    /** Heightfield.cs:227-233: the new array and the copy into it, for a
        window whose copy fits. */
    method CopyWindow(w: Window) returns (cells: array<Cell?>)
      requires Ready(w, Width, Cells.Length)
      ensures fresh(cells) && cells[..] == Copied(Cells[..], Width, w, Columns(w), 0)
    {
      ghost var src := Cells[..];
      var nw, nl := w.EndX - w.StartX + 1, w.EndY - w.StartY + 1;
      MulLeq(0, nw, nl);
      cells := new Cell?[nw * nl](_ => null);
      assert cells[..] == Copied(src, Width, w, 0, 0);
      var i := 0;
      while i < nw
        invariant 0 <= i <= nw
        invariant cells[..] == Copied(src, Width, w, i, 0)
      {
        var j := 0;
        while j < nl
          invariant 0 <= j <= nl
          invariant cells[..] == Copied(src, Width, w, i, j)
        {
          ColumnMajorInRange(i, j, nw, nl);
          ColumnMajorMono(0, 0, i + w.StartX, j + w.StartY, Width);
          ColumnMajorMono(i + w.StartX, j + w.StartY, w.EndX, w.EndY, Width);
          cells[ColumnMajor(i, j, nw)] := Cells[ColumnMajor(i + w.StartX, j + w.StartY, Width)];
          j := j + 1;
        }
        i := i + 1;
      }
    }

    /** Heightfield.cs:225-246: the heightfield holding window w of this one.
        The copy throws when it does not fit; the partly filled array is then
        dropped with the exception, so the check is made up front. */
    method CropTo(w: Window) returns (r: Result<Heightfield>)
      requires 0 <= Width && 0 <= w.StartX && 0 <= w.StartY && 0 <= Columns(w) && 0 <= Rows(w)
      ensures r.Err? ==> r.error == IndexOutOfRange
      ensures r.Ok? <==> CopyFits(w, Width, Cells.Length)
      ensures r.Ok? ==> fresh(r.value) && fresh(r.value.Cells)
      ensures r.Ok? ==>
        && r.value.Width == Columns(w) && r.value.Length == Rows(w)
        && r.value.Height == Height && r.value.CellSize == CellSize
        && r.value.Shaped()
        && CopiedWindow(r.value.Cells[..], Cells[..], Width, w)
    {
      var newWidth := w.EndX - w.StartX + 1;
      var newLength := w.EndY - w.StartY + 1;
      if 1 <= newWidth && 1 <= newLength
         && (newWidth > newLength || ColumnMajor(w.EndX, w.EndY, Width) >= Cells.Length) {
        return Err(IndexOutOfRange);
      }
      var newCells := CopyWindow(w);
      CopiedLayout(Cells[..], Width, w);
      var heightfield := new Heightfield.Cropped(newWidth, newLength, Height, CellSize, newCells);
      return Ok(heightfield);
    }

    /** Heightfield.cs:154-247: the heightfield cut down to the window the
        scans keep. It shares the cells of this one (no cell is copied), has
        the same Height and CellSize, and nothing of this heightfield changes.
        It throws when a scan throws or when the copy does not fit. */
    method FilterEmptyEdge() returns (r: Result<Heightfield>, ghost window: Option<Window>)
      requires Shaped()
      ensures r.Err? ==> r.error == IndexOutOfRange
      ensures window.None? ==> r.Err? && 1 <= Length < Width
      ensures Width == 0 || Length == 0 ==> r.Ok?
      ensures window.Some? ==> EdgeWindow(window.value) && (r.Ok? <==> CopyFits(window.value, Width, Cells.Length))
      ensures r.Ok? ==> window.Some? && fresh(r.value) && fresh(r.value.Cells)
      ensures r.Ok? ==> var w := window.value;
        && r.value.Width == Columns(w) && r.value.Length == Rows(w)
        && r.value.Height == Height && r.value.CellSize == CellSize
        && r.value.Shaped()
        && CopiedWindow(r.value.Cells[..], Cells[..], Width, w)
    {
      ghost var objects := Objects();
      var scanned := EmptyEdges();
      if scanned.Err? {
        return Err(scanned.error), None;
      }
      var w := scanned.value;
      window := Some(w);
      EdgeWindowShape(w);
      assert Objects() == objects;
      r := CropTo(w);
      assert Objects() == objects;
    }

    /** Heightfield.cs:156-224: the window the scans keep lies inside the
        grid, holds at least one column and one row of a grid that has any,
        and none of a grid that has none. */
    lemma EdgeWindowShape(w: Window)
      requires Shaped() && EdgeWindow(w)
      ensures 0 <= w.StartX && 0 <= w.StartY
      ensures 1 <= Width ==> w.StartX <= w.EndX < Width
      ensures 1 <= Length ==> w.StartY <= w.EndY < Length
      ensures Width == 0 ==> Columns(w) == 0
      ensures Length == 0 ==> Rows(w) == 0
    {
    }

    /** What ClimbFilter's read of the slot x*Width + y gives. */
    ghost function Probe(x: int, y: int): Reading
      reads Cells, Objects()
    {
      var k := ColumnMajor(x, y, Width);
      if !(0 <= k < Cells.Length) then Threw(IndexOutOfRange)
      else if Cells[k] == null then Threw(NullCell)
      else if |Cells[k].Spans| == 0 then Empty
      else Filled
    }

    /** Every grid position before (x, y) in ClimbFilter's order (x outer, y
        inner) reads as a non-empty cell. */
    ghost predicate ScannedTo(x: int, y: int)
      reads Cells, Objects()
    {
      forall x', y' :: InGrid(x', y') && (x' < x || (x' == x && y' < y)) ==> Probe(x', y') == Filled
    }

    /** ClimbFilter cannot throw on a complete grid that is no wider than it is
        long, or at most one column wide. */
    lemma NarrowProbe()
      requires Shaped() && Complete()
      ensures Width <= Length || Width <= 1 ==> forall x, y :: InGrid(x, y) ==> !Probe(x, y).Threw?
    {
      if Width <= Length || Width <= 1 {
        forall x, y | InGrid(x, y)
          ensures !Probe(x, y).Threw?
        {
          ColumnMajorInRange(x, y, Width, Length);
        }
      }
    }

    /** Heightfield.cs:249-261, with the climb height already converted (the
        source computes it and never uses it). The loops read the slot
        x*Width + y of every grid position, x outer and y inner, and return at
        the first empty cell; nothing is changed. */
    method ClimbFilter(climbHeight: int) returns (r: Outcome)
      ensures r.Fail? ==> exists x, y :: InGrid(x, y) && ScannedTo(x, y) && Probe(x, y) == Threw(r.error)
      ensures r.Pass? ==> forall x, y :: InGrid(x, y) && ScannedTo(x, y) ==> !Probe(x, y).Threw?
      ensures Shaped() && Complete() && (Width <= Length || Width <= 1) ==> r.Pass?
    {
      if Shaped() && Complete() {
        NarrowProbe();
      }
      var x := 0;
      while x < Width
        invariant 0 <= x && (0 <= Width ==> x <= Width)
        invariant ScannedTo(x, 0)
      {
        var y := 0;
        while y < Length
          invariant 0 <= y && (0 <= Length ==> y <= Length)
          invariant ScannedTo(x, y)
        {
          var k := ColumnMajor(x, y, Width);
          if !(0 <= k < Cells.Length) {
            assert Probe(x, y) == Threw(IndexOutOfRange);
            return Fail(IndexOutOfRange);
          }
          var cell := Cells[k];
          if cell == null {
            assert Probe(x, y) == Threw(NullCell);
            return Fail(NullCell);
          }
          if |cell.Spans| == 0 {
            assert Probe(x, y) == Empty;
            return Pass;
          }
          assert Probe(x, y) == Filled;
          y := y + 1;
        }
        x := x + 1;
      }
      return Pass;
    }

    /** Heightfield.cs:270-287, keeping the voxel index: the scaling by
        CellSize and the offset by the bottom of the bounds (line 283) are
        left to the caller. */
    method ToValidHeight() returns (data: array<Floor>)
      ensures fresh(data) && data.Length == Cells.Length
      ensures forall k :: 0 <= k < Cells.Length ==>
        data[k] == if Cells[k] == null then Base else FloorOf(Cells[k].Spans)
    {
      data := new Floor[Cells.Length];
      var i := 0;
      while i < Cells.Length
        invariant 0 <= i <= Cells.Length
        invariant forall k :: 0 <= k < i ==>
          data[k] == if Cells[k] == null then Base else FloorOf(Cells[k].Spans)
      {
        var cell := Cells[i];
        if cell == null || |cell.Spans| == 0 {
          data[i] := Base;
        } else {
          data[i] := Top(cell.Spans[0].Max);
        }
        i := i + 1;
      }
    }
  }
}

=== FILE: heightfield_proofs.dfy ===
/** Properties of the heightfield filters that relate several calls or hold
    across all inputs: what UnderGroundFilter keeps of a merged span list,
    what ToValidHeight reports, how far the scans of FilterEmptyEdge are
    determined, and what the cropped heightfield's Get sees. */
module HeightfieldProofs {
  import opened Cells
  import opened CellProofs
  import opened GridIndex
  import opened Crop
  import opened Heightfields

  /** Filtering twice with the same threshold changes nothing more. */
  lemma DropBelowIdempotent(spans: seq<Span>, threshold: int)
    ensures DropBelow(DropBelow(spans, threshold), threshold) == DropBelow(spans, threshold)
  {
  }

  /** Heightfield.cs:139-151 on a list AddSpan keeps canonical: the tops grow
      along the list, so the filter removes exactly the spans whose top lies
      below the threshold, and the list stays canonical. */
  lemma DropBelowExact(spans: seq<Span>, threshold: int)
    requires Canonical(spans)
    ensures var r := DropBelow(spans, threshold);
      && Canonical(r)
      && forall k :: 0 <= k < |spans| ==> (|spans| - |r| <= k <==> threshold <= spans[k].Max)
  {
    var r := DropBelow(spans, threshold);
    var d := |spans| - |r|;
    forall k | d < k < |spans|
      ensures threshold <= spans[k].Max
    {
      CanonicalOrdered(spans, d, k);
    }
    forall k | 0 < k < |r|
      ensures r[k - 1].Max < r[k].Min
    {
      assert r[k - 1] == spans[d + k - 1] && r[k] == spans[d + k];
    }
  }

  /** Heightfield.cs:277-284: on a canonical, non-empty list the value
      ToValidHeight reports is the top voxel of the lowest solid run: it is
      solid, the seam above it is open, and nothing below the run is solid. */
  lemma FloorIsLowestTop(spans: seq<Span>)
    requires Canonical(spans) && spans != []
    ensures FloorOf(spans).Top?
    ensures var v := FloorOf(spans).voxel;
      && Covered(spans, v)
      && !CoversHalf(spans, 2 * v + 1)
      && forall p :: p < spans[0].Min ==> !Covered(spans, p)
  {
    var v := FloorOf(spans).voxel;
    assert Contains(spans[0], v);
    if CoversHalf(spans, 2 * v + 1) {
      var k :| 0 <= k < |spans| && ContainsHalf(spans[k], 2 * v + 1);
      if k > 0 {
        CanonicalOrdered(spans, 0, k);
      }
    }
    forall p | p < spans[0].Min
      ensures !Covered(spans, p)
    {
      CoveredIsEvenHalf(spans, p);
      NothingBelowFirst(spans, 2 * p);
    }
  }

  /** A line cannot be both clear and hit. */
  lemma ClearNotHit(h: Heightfield, vertical: bool, line: int, lo: int, hi: int)
    requires h.LineClear(vertical, line, lo, hi)
    ensures !h.LineHit(vertical, line, lo, hi)
  {
  }

  /** The forward scan's stopping line is determined by the cells. */
  lemma FrontStopUnique(h: Heightfield, vertical: bool, n: int, s1: int, s2: int, lo: int, hi: int)
    requires h.FrontStop(vertical, n, s1, lo, hi) && h.FrontStop(vertical, n, s2, lo, hi)
    ensures s1 == s2
  {
    if s1 < s2 {
      ClearNotHit(h, vertical, s1, lo, hi);
    } else if s2 < s1 {
      ClearNotHit(h, vertical, s2, lo, hi);
    }
  }

  /** The backward scan's stopping line is determined by the cells and the
      forward scan's line. */
  lemma BackStopUnique(h: Heightfield, vertical: bool, n: int, start: int, e1: int, e2: int, lo: int, hi: int)
    requires h.BackStop(vertical, n, start, e1, lo, hi) && h.BackStop(vertical, n, start, e2, lo, hi)
    ensures e1 == e2
  {
    if e1 < e2 {
      ClearNotHit(h, vertical, e2, lo, hi);
    } else if e2 < e1 {
      ClearNotHit(h, vertical, e1, lo, hi);
    }
  }

  /** Heightfield.cs:156-223: the window FilterEmptyEdge keeps is a function
      of the cells. */
  lemma EdgeWindowUnique(h: Heightfield, w1: Window, w2: Window)
    requires h.EdgeWindow(w1) && h.EdgeWindow(w2)
    ensures w1 == w2
  {
    FrontStopUnique(h, true, h.Width, w1.StartX, w2.StartX, 0, h.Length - 1);
    BackStopUnique(h, true, h.Width, w1.StartX, w1.EndX, w2.EndX, 0, h.Length - 1);
    FrontStopUnique(h, false, h.Length, w1.StartY, w2.StartY, w1.StartX, w1.EndX);
    BackStopUnique(h, false, h.Length, w1.StartY, w1.EndY, w2.EndY, w1.StartX, w1.EndX);
  }

  /** Heightfield.cs:176-191: when every line after the first kept one is
      clear, the backward scan still stops one line later, having set its end
      to each line it read; the kept range then ends with a clear line. */
  lemma BackStopKeepsClearLine(h: Heightfield, vertical: bool, n: int, start: int, end: int, lo: int, hi: int)
    requires h.BackStop(vertical, n, start, end, lo, hi) && start + 1 < n
    requires forall l :: start < l < n ==> h.LineClear(vertical, l, lo, hi)
    ensures end == start + 1 && h.LineClear(vertical, end, lo, hi)
  {
    if start + 1 < end {
      ClearNotHit(h, vertical, end, lo, hi);
    }
  }

  /** Heightfield.cs:160-175: when every line is clear, the forward scan sets
      its start to each line it reads and ends at the last one, so a
      heightfield without spans is cut down to its last column and row. */
  lemma FrontStopAllClear(h: Heightfield, vertical: bool, n: int, start: int, lo: int, hi: int)
    requires h.FrontStop(vertical, n, start, lo, hi) && 1 <= n
    requires forall l :: 0 <= l < n ==> h.LineClear(vertical, l, lo, hi)
    ensures start == n - 1
  {
    if start < n - 1 {
      ClearNotHit(h, vertical, start, lo, hi);
    }
  }

  /** Heightfield.cs:162-171 and 267 on a grid wider than it is long: a
      column x with Length <= x < Width starts at slot x*Width, past the end
      of the array, so its first read throws and it is neither clear nor hit. */
  lemma ColumnUnreadable(h: Heightfield, x: int)
    requires h.Shaped() && 1 <= h.Length <= x < h.Width
    ensures !h.LineClear(true, x, 0, h.Length - 1) && !h.LineHit(true, x, 0, h.Length - 1)
  {
    MulLeq(h.Length, x, h.Width);
    assert h.LookOn(true, x, 0) == Threw(IndexOutOfRange);
  }

  /** Heightfield.cs:160-191 on a grid with at least one row that is wider
      than it is long: whatever the cells hold, no window comes out of the
      column scans, so FilterEmptyEdge always throws in its scans (its
      contract gives a window exactly when the scans finish). */
  lemma WideScansThrow(h: Heightfield, w: Window)
    requires h.Shaped() && 1 <= h.Length < h.Width
    ensures !h.EdgeWindow(w)
  {
    if h.EdgeWindow(w) {
      if w.StartX >= h.Length {
        ColumnUnreadable(h, w.StartX);
      } else if w.EndX >= h.Length {
        ColumnUnreadable(h, w.EndX);
      } else {
        ColumnUnreadable(h, h.Width - 1);
      }
    }
  }

  /** Heightfield.cs:160-223 on a grid with columns but no rows: every
      column is read over no rows and is clear, so the column scans keep the
      last column, and the row scans find no rows. */
  lemma NoRowsWindow(h: Heightfield, w: Window)
    requires h.Shaped() && 1 <= h.Width && h.Length == 0 && h.EdgeWindow(w)
    ensures w.StartX == w.EndX == h.Width - 1
    ensures Columns(w) == 1 && Rows(w) == 0
  {
    FrontStopAllClear(h, true, h.Width, w.StartX, 0, -1);
  }

  /** Heightfield.cs:160-223 on a grid with rows but no columns: the column
      scans keep no column, every row is read across no columns and is
      clear, so the row scans keep the last row. */
  lemma NoColumnsWindow(h: Heightfield, w: Window)
    requires h.Shaped() && h.Width == 0 && 1 <= h.Length && h.EdgeWindow(w)
    ensures w.StartY == w.EndY == h.Length - 1
    ensures Columns(w) == 0 && Rows(w) == 1
  {
    FrontStopAllClear(h, false, h.Length, w.StartY, w.StartX, w.EndX);
  }

  /** Heightfield.cs:226-233 on a grid no wider than it is long: the cells the
      copy reads are always in the old array, so the copy fits exactly when
      the window has no more columns than rows. */
  lemma CropFitsWhenNarrow(h: Heightfield, w: Window)
    requires h.Shaped() && h.EdgeWindow(w) && 1 <= h.Width <= h.Length
    ensures CopyFits(w, h.Width, h.Cells.Length) <==> Columns(w) <= Rows(w)
  {
    h.EdgeWindowShape(w);
    ColumnMajorInRange(w.EndX, w.EndY, h.Width, h.Length);
  }

  /** Get on c at (i, j) and Get on h at (x, y) agree when both positions
      are in their grids and the slot c reads holds the cell of the slot h
      reads. */
  lemma SameCell(h: Heightfield, c: Heightfield, i: int, j: int, x: int, y: int)
    requires c.InGrid(i, j) && h.InGrid(x, y)
    requires Holds(c.Cells[..], ColumnMajor(i, j, c.Width), h.Cells[..], ColumnMajor(x, y, h.Width))
    ensures c.Get(i, j).Ok? && c.Get(i, j) == h.Get(x, y)
  {
    assert c.Cells[ColumnMajor(i, j, c.Width)] == c.Cells[..][ColumnMajor(i, j, c.Width)];
    assert h.Cells[ColumnMajor(x, y, h.Width)] == h.Cells[..][ColumnMajor(x, y, h.Width)];
  }

  /** Heightfield.cs:231 and 263-268: in the cropped heightfield, Get reads
      the slot i*newWidth + j, the very slot the copy wrote for (i, j); so for
      the first newWidth rows of every column, and for every row of the last
      column, Get on the crop agrees with Get on the original at the shifted
      position. */
  lemma CropAgreesWithGet(h: Heightfield, c: Heightfield, w: Window)
    requires 0 <= w.StartX && w.EndX < h.Width && 0 <= w.StartY && w.EndY < h.Length
    requires c.Width == Columns(w) && c.Length == Rows(w)
    requires CopiedWindow(c.Cells[..], h.Cells[..], h.Width, w)
    ensures forall i, j :: 0 <= i < Columns(w) && 0 <= j < Columns(w) && j < Rows(w) ==>
      c.Get(i, j).Ok? && c.Get(i, j) == h.Get(i + w.StartX, j + w.StartY)
    ensures var last := Columns(w) - 1;
      forall j :: 1 <= Columns(w) <= j < Rows(w) ==>
        c.Get(last, j).Ok? && c.Get(last, j) == h.Get(last + w.StartX, j + w.StartY)
  {
    var nw, nl := Columns(w), Rows(w);
    forall i, j | 0 <= i < nw && 0 <= j < nw && j < nl
      ensures c.Get(i, j).Ok? && c.Get(i, j) == h.Get(i + w.StartX, j + w.StartY)
    {
      SameCell(h, c, i, j, i + w.StartX, j + w.StartY);
    }
    var last := nw - 1;
    forall j | 1 <= nw <= j < nl
      ensures c.Get(last, j).Ok? && c.Get(last, j) == h.Get(last + w.StartX, j + w.StartY)
    {
      SameCell(h, c, last, j, last + w.StartX, j + w.StartY);
    }
  }

  /** Heightfield.cs:231: with 2 <= newWidth < newLength the second column's
      first cell lands in slot newWidth, where the first column's row
      newWidth was written, so Get on the crop at (0, newWidth) sees the
      original cell (StartX + 1, StartY). */
  lemma CropShiftsColumns(h: Heightfield, c: Heightfield, w: Window)
    requires 0 <= w.StartX && w.EndX < h.Width && 0 <= w.StartY && w.EndY < h.Length
    requires c.Width == Columns(w) && c.Length == Rows(w)
    requires CopiedWindow(c.Cells[..], h.Cells[..], h.Width, w)
    requires 2 <= Columns(w) < Rows(w)
    ensures c.Get(0, Columns(w)) == h.Get(w.StartX + 1, w.StartY)
  {
    var nw := Columns(w);
    ColumnMajorNext(0, 0, nw);
    SameCell(h, c, 0, nw, w.StartX + 1, w.StartY);
  }
}

=== FILE: mask_grid.dfy ===
/** The walkability mask of the navigation grid (MaskGrid.cs): one row of
    flags per y, each row of its own length, and the disc test that asks
    whether a circle around a grid position is walkable throughout. */
module MaskGrids {
  import opened GridIndex

  /** Column x of row y exists (rows may differ in length). */
  predicate InMask(rows: seq<seq<bool>>, x: int, y: int) {
    0 <= y < |rows| && 0 <= x < |rows[y]|
  }

  /** MaskGrid.cs:13-24: the flag at (x, y); false wherever the grid has no
      such position. */
  function Get(rows: seq<seq<bool>>, x: int, y: int): (r: bool)
    ensures r ==> InMask(rows, x, y)
    ensures InMask(rows, x, y) ==> r == rows[y][x]
  {
    if 0 <= y < |rows| then
      var row := rows[y];
      if 0 <= x < |row| then row[x] else false
    else false
  }

  /** An offset (i, j) the disc test of radius `radius` visits and keeps: both
      coordinates in [-radius, radius) and i*i + j*j <= radius*radius. */
  predicate InDisc(i: int, j: int, radius: int) {
    -radius <= i < radius && -radius <= j < radius && i * i + j * j <= radius * radius
  }

  /** The flag is set at every offset of the disc around (x, y). */
  ghost predicate DiscClear(rows: seq<seq<bool>>, x: int, y: int, radius: int) {
    forall i, j :: InDisc(i, j, radius) ==> Get(rows, i + x, j + y)
  }

  /** MaskGrid.cs:37-53: offsets are visited i outer, j inner, each from
      -radius up to radius - 1; the first offset of the disc whose flag is not
      set makes the answer false. */
  method Check(rows: seq<seq<bool>>, x: int, y: int, radius: int) returns (r: bool)
    ensures r <==> DiscClear(rows, x, y, radius)
  {
    var sqrRadius := radius * radius;
    var i := -radius;
    while i < radius
      invariant -radius <= i || radius <= 0
      invariant forall i', j' :: InDisc(i', j', radius) && i' < i ==> Get(rows, i' + x, j' + y)
    {
      var j := -radius;
      while j < radius
        invariant -radius <= j <= radius
        invariant forall i', j' :: InDisc(i', j', radius) && (i' < i || (i' == i && j' < j)) ==>
          Get(rows, i' + x, j' + y)
      {
        var sqrLen := i * i + j * j;
        if sqrLen <= sqrRadius {
          if !Get(rows, i + x, j + y) {
            assert InDisc(i, j, radius);
            return false;
          }
        }
        j := j + 1;
      }
      i := i + 1;
    }
    return true;
  }

  /** MaskGrid.cs:40-42 and 52: with radius <= 0 both loops are empty and the
      answer is true whatever the grid holds. */
  lemma NoDisc(rows: seq<seq<bool>>, x: int, y: int, radius: int)
    requires radius <= 0
    ensures DiscClear(rows, x, y, radius)
  {
  }

  /** MaskGrid.cs:47-48 and 23: a disc that reaches past the grid (or into a
      short row) is never clear. */
  lemma OutsideBlocks(rows: seq<seq<bool>>, x: int, y: int, radius: int, i: int, j: int)
    requires InDisc(i, j, radius) && !InMask(rows, i + x, j + y)
    ensures !DiscClear(rows, x, y, radius)
  {
  }

  /** A smaller disc visits a subset of the offsets of a larger one. */
  lemma DiscGrows(i: int, j: int, r: int, r': int)
    requires 0 <= r' <= r && InDisc(i, j, r')
    ensures InDisc(i, j, r)
  {
    assert r' * r' <= r * r by {
      MulLeq(r', r, r');
      MulLeq(r', r, r);
    }
  }

  /** MaskGrid.cs:39-52: the test is monotone in the radius. */
  lemma ClearShrinks(rows: seq<seq<bool>>, x: int, y: int, r: int, r': int)
    requires 0 <= r' <= r && DiscClear(rows, x, y, r)
    ensures DiscClear(rows, x, y, r')
  {
    forall i, j | InDisc(i, j, r')
      ensures Get(rows, i + x, j + y)
    {
      DiscGrows(i, j, r, r');
    }
  }

  /** MaskGrid.cs:40-42: the ranges stop one short of radius, so the disc
      reaches radius steps towards negative x and y but only radius - 1 steps
      towards positive x and y; for radius >= 1 the position itself is in it. */
  lemma DiscReach(radius: int)
    requires 1 <= radius
    ensures InDisc(0, 0, radius)
    ensures InDisc(-radius, 0, radius) && InDisc(0, -radius, radius)
    ensures !InDisc(radius, 0, radius) && !InDisc(0, radius, radius)
  {
    MulLeq(1, radius, radius);
  }
}
